=== FILE: README.md ===
# diary, modelled in Dafny

A model of the core of the `diary` Python logging library. These are the
parts modelled:

- The `Event` record (`diary/events.py`). It carries a timestamp, a payload,
  a level and the level's name. It can also carry a formatter: a
  `str.format` template, or a function.
- The text formats (`diary/formats.py`): `stringify_level`,
  `stringify_info`, `standard` and `alarms`.
- The `level` decorator and the built-in levels `info`, `warn`, `error` and
  `debug`. This covers both the library's own version (`diary/levels.py`)
  and the prototype (`elementary/levels.py`).
- The background writer thread (`diary/logthread.py`): its queue, `add`,
  `run` and `join`.
- The `Diary` facade (`diary/diary.py`):
  - how the constructor reads its path into a text-log target and a
    database target;
  - `set_db`, `set_timer`, `_write`, `log`, and the four level methods;
  - `close`, the `cleanup` hook.

Python objects are the values of `Py.Value`. A call that returns or raises
is a `Py.Outcome`. State changes are explicit: a mutator returns the new
state paired with the outcome of the call (`Py.After`).

The modules are:

- `Py`: the object model.
- `Formats`: the text formats.
- `Template`: `str.format` on keyword fields, as a single pass and as
  parse-then-render.
- `Events`: the event record.
- `Levels`: the level decorator.
- `ElementaryLevels`: the prototype decorator.
- `LogThread`: the writer thread, as a state machine.
- `PosixPath`: `split`, `splitext` and `join`.
- `DiaryFacade`: the facade.

The main results:

- **Join writes everything.** A thread joined after N events writes
  exactly those N events in FIFO order. It then stops at the sentinel.
  If a write raises first, it dies there.
- **Async equals sync once closed.** Take a series of `info` calls on
  plain payloads, with no keywords, made on an asynchronous diary and then
  `close`, with no thread steps in between. The closed diary holds the same
  lines and rows as a synchronous diary built with the same arguments after
  the same calls. This holds whenever no write raises.
- **Reporting happens first.** Every level call reports its event exactly
  once, before the handler runs, whether or not the handler raises. The
  exception is a call with a keyword that names one of the wrapper's own
  parameters: it raises `TypeError` and reports nothing.
- **Constructor path reading.** Each case of the constructor's path
  reading is stated as a lemma: directory, file by extension, file without
  one, a new path, and a refused path.
- **Round trips.** A `standard` line reads back as its level name, time and
  payload text, and template parsing round-trips.

The writer writes an event to the database first and to the text log
second (`diary/diary.py:141-153`).

## Model

| member | source | states |
|---|---|---|
| Formats.StringifyLevel | diary/formats.py:13-22 | a function level becomes its name upper-cased, character by character; anything else becomes its `str()` text |
| Formats.StripCharacterised | diary/formats.py:24-30 | `stringify_info` strips exactly the leading and trailing whitespace: surrounding whitespace around a trimmed core strips to that core |
| Formats.StripIdempotent | diary/formats.py:24-30 | stripping a stripped payload changes nothing |
| Formats.StandardParsesBack | diary/formats.py:32-40 | a `standard` line `[name]:[time]: text` parses back to its three parts when name and time hold no `]` |
| Formats.Alarms | diary/formats.py:54-64 | an `alarms` line starts and ends with its separator |
| Formats.AlarmsShoutIffError | diary/formats.py:54-64 | the `alarms` separator is `!!!` exactly when the level name is `ERROR` |
| Formats.AlarmsParsesBack | diary/formats.py:54-64 | an `alarms` line reads back as exactly its separator, level name, time and stripped payload, when the separator first occurs right after the name and right after the time |
| Formats.SplitOnFirst | diary/formats.py:59-64 | cutting at the first separator recovers the part before it and the rest, when no separator starts inside that part |
| Formats.NoEarlySepWithoutFirst | diary/formats.py:58 | a name or time without the separator's first character (`!` or a space) meets that condition |
| Template.FormatIsParseThenRender | diary/events.py:42 | for a well-formed template, the single left-to-right pass of `str.format` gives the same result or error as parsing then rendering |
| Template.RenderSucceedsIff | diary/events.py:42 | rendering succeeds exactly when every placeholder is a keyword name present among the event's attributes |
| Template.RenderReadsOnlyNames | diary/events.py:42 | the rendered text depends only on the attributes the template names |
| Template.ParsePrint | diary/events.py:42 | printing a token list with plain names and parsing it back gives the tokens |
| Template.PrintParse | diary/events.py:42 | printing the tokens of any well-formed template gives the template back |
| Events.Make | diary/events.py:11-36 | a new event takes `dt` if given else the current time, keeps info and level, has a level name in step with the level, and has no formatter |
| Events.New | diary/events.py:11-36 | the constructor succeeds exactly when the formatter is falsy, a `str` or a function, and otherwise raises `ValueError` naming it |
| Events.SetFormatter | diary/events.py:38-46 | the formatter is stored, even when it is rejected; a truthy `str` installs a template rendering and a truthy function a function rendering; any other truthy value raises `ValueError`; no other attribute changes |
| Events.SetLevel | diary/events.py:48-50 | the level changes, the level name follows it, nothing else changes |
| Events.Render | diary/events.py:52-55 | `str(event)` is the installed rendering when there is one, the default `repr` otherwise |
| Events.NewRenders | diary/events.py:36-55 | an event made with a falsy formatter has no `formatted` and prints as its `repr`; one made with a template prints as the template filled from its attributes |
| Events.TemplateFailsIffMissing | diary/events.py:42 | `formatted()` of a template event fails exactly when a placeholder names no attribute of the event |
| Events.TemplateReadsOnlyNames | diary/events.py:42 | the template closure reads the event when called, and only the attributes the template names: events whose named attributes agree render alike |
| Events.TemplateSeesCurrentInfo | diary/events.py:42 | a template that does not name `info` renders the same after the payload changes |
| Events.LevelInfoTemplate | diary/events.py:42 | the template `({level})({info})` renders as the level's and the payload's current text, each in parentheses |
| Events.ClearingKeepsStaleRendering | diary/events.py:38-46 | setting the formatter to `None` keeps the old template closure, which then fails on `None.format` |
| Levels.Wrap | diary/levels.py:12-22 | a keyword `event` or `reporter` raises `TypeError` before anything is reported; otherwise the wrapper's state is the reporter's, and if reporting raised that exception is the result, else the handler's result or exception is |
| Levels.RepeatedCallsReportEach | diary/levels.py:12-22 | n wrapped calls report, in call order, the event of every call whose keywords do not clash with the wrapper's parameters, whether or not the handler raises |
| Levels.Bind | diary/levels.py:18-20 | passing `*args, **kwargs` succeeds exactly when they bind to the handler's parameters; each parameter gets its positional value, keyword value or default; a failure is a `TypeError` |
| Levels.RaiseWith | diary/levels.py:51-52 | `raise e_type(event)` raises that exception class carrying the event; a non-class raises `TypeError` |
| Levels.PlainLevelsOnlyReport | diary/levels.py:25-40 | `info`, `warn` and `debug` report once unless a keyword clashes with the wrapper's parameters; they return normally exactly when given no extra argument, and otherwise raise `TypeError` |
| Levels.ErrorRaisesOnRequest | diary/levels.py:43-52 | `error` reports once and raises exactly when the bound `raises` is truthy, raising `e_type(event)` |
| Levels.ErrorDefaults | diary/levels.py:43-52 | `raises=True` alone raises `Exception(event)`; no options return normally |
| Levels.UnacceptedArgumentRaises | diary/levels.py:18-20 | an argument `error` does not accept raises `TypeError`; the report was made first unless the keyword clashes with the wrapper's parameters |
| ElementaryLevels.Decorate | elementary/levels.py:10-20 | the prototype's wrapper is named `level_wrapper` whatever it wraps |
| ElementaryLevels.ReportsHandlerAndText | elementary/levels.py:15-18 | the prototype hands the reporter the undecorated handler and the text once, then returns what the handler does; a keyword `text` or `reporter` raises `TypeError` and reports nothing |
| ElementaryLevels.AgreesWithLevels | elementary/levels.py:10-20 | each decorator reports once exactly when no keyword clashes with its own wrapper's parameters; when neither clashes, the two give the same outcome and report the same texts |
| ElementaryLevels.WrapperNamesAlike | elementary/levels.py:23-59 | the four prototype levels share one wrapper name; only their handlers tell them apart |
| ElementaryLevels.ErrorRaisesText | elementary/levels.py:41-50 | the prototype `error` with `raises=True` reports, then raises `Exception(text)` |
| LogThread.Spawn | diary/logthread.py:12-24 | a new thread starts with an empty queue, before its database set-up |
| LogThread.Add | diary/logthread.py:35-37 | `add` appends the event at the back and changes nothing else |
| LogThread.Signal | diary/logthread.py:26-32 | `join` appends one sentinel at the back and changes nothing else |
| LogThread.StepShrinks | diary/logthread.py:39-47 | each step of `run` consumes set-up or a queue entry, so the loop ends once the queue is empty or the sentinel is taken |
| LogThread.RunFuel | diary/logthread.py:39-47 | running with enough steps reaches the one resting state, where no step is possible |
| LogThread.Drain | diary/logthread.py:39-47 | the iterative loop reaches the same resting state as the step semantics, where `run` is blocked or has ended |
| LogThread.RunningWritesInOrder | diary/logthread.py:39-47 | a running thread writes the events before the first sentinel in FIFO order, stopping at the first write that raises, in which case it dies |
| LogThread.StartsWithSetDb | diary/logthread.py:39-42 | `run` opens the database first exactly when asked to; if that raises, the thread dies before writing |
| LogThread.JoinWritesEverything | diary/logthread.py:26-47 | after `join`, every event queued before it is written in order; the thread ends with an empty queue, or has died at a failing write |
| LogThread.RecorderWritesAll | diary/logthread.py:44-47 | a thread whose writes never fail writes each queued event once, in order |
| LogThread.OpensDbFirst | diary/logthread.py:39-47 | the database is opened before the first write, and only when the thread was asked to |
| LogThread.EndedThreadIgnoresQueue | diary/logthread.py:26-47 | once `run` has returned or died, later `add` or `join` calls only grow the queue |
| LogThread.JoinEnds | diary/logthread.py:26-47 | `join` always ends the thread, in whatever phase it was: at the sentinel, at an exception, or already before |
| LogThread.WriteFailureKillsThread | diary/logthread.py:44-47 | a write that raises ends the thread; the rest of the queue stays unwritten |
| LogThread.AddCommutesWithStep | diary/logthread.py:35-47 | adding an event while the thread works does not change what the thread's next step does to the older entries |
| PosixPath.RFind | diary/diary.py:53-54 | finds the last occurrence of a character, or -1 |
| PosixPath.Tail | diary/diary.py:53 | the last component of a path is a suffix of the path and holds no separator |
| PosixPath.TailFollowsSeparator | diary/diary.py:53 | the last component is the whole path or starts right after a `/` |
| PosixPath.SplitExt | diary/diary.py:54 | `splitext` splits a path into two parts whose concatenation is the path; the extension is empty or is one dot and a dotless, slashless rest; it is non-empty exactly when the last component has a dot preceded by a non-dot character |
| PosixPath.SplitExtOf | diary/diary.py:54 | `splitext` recovers exactly the extension a file name was built with |
| PosixPath.LeadingDotsNoExt | diary/diary.py:54 | leading dots belong to the name: a last component of dots followed by a dotless rest has no extension |
| PosixPath.LeadingDotExamples | diary/diary.py:54 | `.db` and `dir/..x` have no extension |
| PosixPath.JoinTail | diary/diary.py:50-51 | joining a name onto a directory yields a path whose last component is that name |
| DiaryFacade.Classify | diary/diary.py:48-79 | a directory gets both files inside it; an existing file or a new path gets exactly one target, itself; the call raises `ValueError` exactly for an existing non-file or an existing file of unrecognised extension |
| DiaryFacade.ExistingFileByExtension | diary/diary.py:52-64 | an existing file is a database for `db`/`sql`/`sqlite`/`sqlite3` or the database name, and a text log for `txt`/`text`/`log` or the text file name |
| DiaryFacade.ExistingFileWithoutDot | diary/diary.py:55-56 | an existing file without an extension is a text log |
| DiaryFacade.HiddenFileIsText | diary/diary.py:53-56 | an existing file named like `.db` (dots, then a dotless rest) has no extension and is a text log, even when its name is the database name |
| DiaryFacade.MissingHiddenIsText | diary/diary.py:69-77 | a new path whose last component is like `.db` becomes a text log |
| DiaryFacade.MissingByExtension | diary/diary.py:68-79 | a new path is a database exactly for a database extension; anything else becomes a text log |
| DiaryFacade.BadExtensionRefused | diary/diary.py:62-64 | an existing `BAD.FILE` is refused with a `ValueError` that names the path |
| DiaryFacade.Construct | diary/diary.py:43-110 | construction succeeds exactly when the path is classified; an asynchronous diary starts a thread that opens the database, and a synchronous one opens the database itself |
| DiaryFacade.ConstructedAlike | diary/diary.py:105-110 | the asynchronous and the synchronous diary differ only in who opens the database |
| DiaryFacade.SetDb | diary/diary.py:112-119 | `set_db` opens the database on the database file, and raises `ValueError` with nothing changed when there is none |
| DiaryFacade.SetTimer | diary/diary.py:121-134 | a keyword `self`, `interval` or `func` raises `TypeError`; otherwise `set_timer` raises `RuntimeError` exactly when the diary is synchronous, and installs the timer when it does not raise; a raising call changes nothing |
| DiaryFacade.DbRow | diary/logdb.py:40-48 | the inserted row holds the event's time, level name and payload, as `LoggerDB.log` stores it; `LoggerDB` stands in for the `DiaryDB` class the facade opens, which is not part of this model |
| DiaryFacade.Write | diary/diary.py:136-158 | `_write` inserts the database row first (raising `AttributeError` when the database was never opened), then appends the text line plus newline; the event becomes the last logged only when nothing raised; a raise keeps earlier effects |
| DiaryFacade.TextLine | diary/diary.py:144-148 | the line is the diary's format for an event without a truthy formatter, else the event's `formatted()` |
| DiaryFacade.ConsistentEventsHaveALine | diary/diary.py:144-148 | with the corrected test, no event whose formatter was accepted lacks a `formatted` attribute when written |
| DiaryFacade.EmptyFormatterCounterexample | diary/diary.py:144-148 | as written, an event made with formatter `""` raises `AttributeError` when written; the corrected test writes the format line |
| DiaryFacade.TextLineAgreesExceptFalsy | diary/diary.py:144-148 | the written and the corrected test agree on every event whose formatter is `None` or truthy |
| DiaryFacade.StandardLineReadsBack | diary/diary.py:144-153 | with the standard format, the written line ends in a newline and reads back as the level name, time and payload |
| DiaryFacade.EventFor | diary/diary.py:166-169 | `log` reports the caller's event itself, or a new event of the payload at this level |
| DiaryFacade.Report | diary/diary.py:174-177 | an asynchronous diary reports by queueing on the thread, a synchronous one by writing |
| DiaryFacade.RefusedLogChangesNothing | diary/diary.py:160-177 | a keyword `self`, `info`, `level`, `event` or `reporter` makes `log` raise `TypeError` with nothing reported, written or queued |
| DiaryFacade.SyncLogWrites | diary/diary.py:160-177 | a synchronous `log` refuses a clashing keyword with nothing written; otherwise it leaves the diary as `_write` does and raises what `_write` raised, else returns what the level returns |
| DiaryFacade.AsyncCallOnlyQueues | diary/diary.py:160-177 | an asynchronous `log` refuses a clashing keyword with nothing queued; otherwise it only queues the event, and returns what the level returns |
| DiaryFacade.Relevel | diary/diary.py:184-216 | a level method re-levels an event passed to it and leaves other payloads alone |
| DiaryFacade.LevelMethodClashes | diary/diary.py:179-207 | a level method refuses a keyword `self` or `info` before re-levelling, and a keyword `level` after re-levelling, with `TypeError` and nothing logged |
| DiaryFacade.SyncInfoIsWrite | diary/diary.py:179-187 | a synchronous `info` of a payload is one `_write` of its event, and returns normally when that does |
| DiaryFacade.WriteSucceeds | diary/diary.py:136-158 | `_write` with no database or an open one, and a text line that renders, returns normally, stores the event's row when there is a database, appends the line plus newline, and records the event as last logged |
| DiaryFacade.InfoWriteStandard | diary/diary.py:136-158 | the `_write` of an `info` event under the standard format stores the row `(time, INFO, payload)` when there is a database and appends `[INFO]:[time]: payload` |
| DiaryFacade.SyncInfoWritesStandardLine | diary/diary.py:179-187 | a synchronous `info` of a payload, on a diary with a text log and no database or an open one, stores the row `(time, INFO, payload)` when there is a database, appends the standard line `[INFO]:[time]: payload`, returns normally and records the event as last logged |
| DiaryFacade.SyncErrorWritesThenRaises | diary/diary.py:199-207 | a synchronous `error(..., raises=True)` writes the event, storing the row `(time, ERROR, payload)` when a database is open, and then raises `Exception(event)` |
| DiaryFacade.Debug | diary/diary.py:209-219 | `debug` refuses a keyword `self` or `info`; otherwise it re-levels an event even when debugging is off, and then logs nothing |
| DiaryFacade.DisabledDebugOnlyRelevels | diary/diary.py:209-219 | with debugging off, the event passed in ends up at level `DEBUG` and the diary is unchanged |
| DiaryFacade.WorkerStep | diary/logthread.py:39-47 | each thread step the environment schedules consumes work, keeps the timer, and keeps the thread |
| DiaryFacade.Close | diary/diary.py:81-93 | `close` joins the thread, then fails with `AttributeError` on a database file whose connection was never opened, keeping the timer; otherwise it drops the timer, and a synchronous diary is otherwise unchanged |
| DiaryFacade.CloseEndsThread | diary/diary.py:84-85 | after `close` the thread has returned at the sentinel or died, whatever its phase before |
| DiaryFacade.CloseTwiceWritesNothing | diary/diary.py:81-95 | a second `close` writes nothing more, gives the same outcome, and leaves the thread in the phase the first left it |
| DiaryFacade.SyncInfoEachWrites | diary/diary.py:174-187 | synchronous `info` calls write their events one by one, in call order |
| DiaryFacade.AsyncInfoEachQueues | diary/diary.py:174-187 | asynchronous `info` calls queue their events in call order and write nothing |
| DiaryFacade.WriteEachIsWriteAll | diary/logthread.py:44-47 | when no write raises, the thread's writes and the synchronous writes leave the same diary |
| DiaryFacade.CloseRunsQueue | diary/diary.py:81-85 | closing a fresh asynchronous diary opens the database if asked, writes every queued event in order and ends the thread |
| DiaryFacade.AsyncMatchesSyncAfterClose | diary/diary.py:81-187 | after `info` calls on payloads with no keywords and then `close`, with no thread steps between, an asynchronous diary holds exactly what a synchronous one holds after the same calls, when no write raises |

## Left out

- The console echo (`also_print`) and the text encoding: printing is output only, and text is `seq<char>`.
- Files and the database are modelled as the lines and rows written to them. The SQLite connection, the `CREATE TABLE` at start-up, file opening and closing, and I/O errors are not modelled. The database class is assumed to open without error.
- Writes after `close`: the files are not closed in the model.
- The `atexit` registration of `cleanup`: `DiaryFacade.Close` is the hook itself, called by whoever ends the program.
- The repeating timer: `set_timer` records the timer, and the timer thread's calls are not modelled (`diary/RepeatedTimer.py` is not part of this model).
- The Python 2 branches of `_write` and `log`: the model is Python 3.
- The `minimal` and `easy_read` formats: they rely on `strftime` directives of `datetime`. They, and any user format function, are `Custom` formats whose text comes from an `invoke` parameter.
- Function formatters and custom formats: the user function's text comes from the `invoke` parameter.
- `datetime.now()`: the current time is a parameter.
- `Formats.StringifyLevel`: upper-casing is ASCII-only; other letters are kept as they are.
- `Template.FieldName`: placeholders with a conversion, a format spec, an attribute or an index raise the model-only `OutsideModel` error instead of being evaluated.
- Callable objects that are not functions, and user-defined event subclasses beyond extra attributes: they are not modelled.
- The queue holds event values, not references: an event changed after `add` is not seen changed by the thread.
- A falsy `async` that is not `False`, such as `0` or `None`: the constructor makes such a diary synchronous (`diary/diary.py:106`), but `set_timer` tests `self.async is False` (`diary/diary.py:129`) and so installs a timer on it. The model's flag is a boolean, so this case is not represented.
- `join`'s `timeout` is not modelled; `join` waits until the thread ends. `task_done` is left out too: it affects only `Queue.join`, which nothing calls.
- Thread interleaving: the thread's steps are scheduled explicitly (`DiaryFacade.WorkerStep`), and the facade's calls are atomic with respect to them.
- `Levels.Bind`: the `TypeError` messages differ from CPython's wording, and the unknown-keyword message does not name the keyword.
- The `repr()` texts of events and functions are parameters or fixed strings.
- Events.Render: an event that carries its own `formatted` attribute in `extra`, set by a caller or a subclass rather than by `set_formatter`, is printed by `__str__` (`diary/events.py:52-55`) and written by `_write` through that attribute. The model's `Render` and `Formatted` look only at the rendering `set_formatter` installed, so they give such an event's `repr()` or an `AttributeError`. Events made by `Events.Make` and `Events.New` carry no extra attributes.
- Windows paths: `os.path` is modelled as `posixpath`; `ntpath`, with its `\\` separators and drive letters, is not modelled.
- DiaryFacade.Write: uses the corrected test of the Findings table, `!Truthy(formatter)`, rather than the source's `formatter is None`. For a formatter of `""` or `0` the source raises `AttributeError` where the model writes the format line. An event whose template was cleared by `set_formatter("")` writes `"\n"` in the source, and one whose function formatter was cleared raises `TypeError`; the model writes the format line for both. `DiaryFacade.EmptyFormatterCounterexample` models the code as written.
- DiaryFacade.StandardLineReadsBack: its requirement `!Truthy(e.formatter)` admits events with formatter `""` or `0`, which the source does not write (see the line above); the lemma is about the corrected `_write`, as are `DiaryFacade.Report`, `DiaryFacade.SyncLogWrites` and `DiaryFacade.AsyncMatchesSyncAfterClose`.
- DiaryFacade.Close: the database object's `close` is assumed to succeed. `diary.py` opens the database with `logdb.DiaryDB`, which is not part of this model; the `LoggerDB` class of `diary/logdb.py` has no `close`. Only the `None.close()` of a connection never opened is modelled as a failure.
- Levels.RaiseWith: when `e_type` is a function, the source calls it and raises what it returns, or raises `TypeError` when that is not an exception. The model raises `TypeError` for every `e_type` that is not an exception class, because the handler cannot call user functions.
- A stack trace argument such as `log_trace`: the handlers of `diary/levels.py` take no such parameter, so passing it raises `TypeError`, as `Levels.PlainLevelsOnlyReport` states.

## Findings

| source | as written | input that shows it | evidently intended | confidence | as-written member | corrected member |
|---|---|---|---|---|---|---|
| diary/diary.py:145-148 | `_write` uses the log format only when `event.formatter is None`. But `set_formatter` (diary/events.py:40) installs `formatted` only for a truthy formatter. | `Event(info, level, formatter="")` written to a diary with a text log: `event.formatted()` raises `AttributeError` | fall back to the log format whenever the event has no rendering, i.e. whenever the formatter is falsy | not executed | DiaryFacade.EmptyFormatterCounterexample | DiaryFacade.ConsistentEventsHaveALine |

=== FILE: diary.dfy ===
/**
 The `Diary` facade of `diary/diary.py`: the constructor's reading of the
 path it is given, `set_db`, `set_timer`, `_write`, `log` and the four level
 methods, and `close` (the `cleanup` hook).

 Files and the database are modelled by what is written to them: the lines
 appended to the text log and the rows inserted into the database. The
 logging thread, when there is one, is a `LogThread.Worker` whose steps the
 environment schedules (`WorkerStep`) between calls; `close` joins it.
 */
module DiaryFacade {
  import opened Py
  import Formats
  import Events
  import Levels
  import LogThread
  import PosixPath

  type Event = Events.Event

  // Reading the constructor's path.

  /** What `os.path.exists`, `isdir` and `isfile` report about the path:
      nothing there, a directory, a regular file, or something else. */
  datatype PathKind = Missing | Directory | RegularFile | OtherKind

  /** The text log file and the database file the diary writes to. */
  datatype Targets = Targets(logFile: Option<string>, dbFile: Option<string>)

  const DbExtensions: set<string> := {"db", "sql", "sqlite", "sqlite3"}
  const TextExtensions: set<string> := {"txt", "text", "log"}

  /** An existing file whose last component names neither target and whose
      extension is neither a database nor a text extension. */
  predicate Unresolved(path: string, fileName: string, dbName: string) {
    var tail := PosixPath.Tail(path);
    var ext := PosixPath.Ext(tail);
    && ext != []
    && tail != dbName && ext[1..] !in DbExtensions
    && tail != fileName && ext[1..] !in TextExtensions
  }

  /** The constructor's choice of targets. A directory gets both files,
      named `file_name` and `db_name` inside it; a file or a path to be
      created gets exactly one, itself. */
  function Classify(path: string, kind: PathKind, fileName: string, dbName: string): (r: Outcome<Targets, Event>)
    ensures r.Raised? <==> kind == OtherKind || (kind == RegularFile && Unresolved(path, fileName, dbName))
    ensures r.Raised? ==> r.exc.ValueError?
    ensures r.Ok? && kind == Directory ==>
              r.value == Targets(Some(PosixPath.Join(path, fileName)), Some(PosixPath.Join(path, dbName)))
    ensures r.Ok? && kind != Directory ==>
              r.value == Targets(Some(path), None) || r.value == Targets(None, Some(path))
  {
    match kind
    case Directory => Ok(Targets(Some(PosixPath.Join(path, fileName)), Some(PosixPath.Join(path, dbName))))
    case RegularFile =>
      var tail := PosixPath.Tail(path);
      var ext := PosixPath.Ext(tail);
      if ext == [] then Ok(Targets(Some(path), None))
      else if tail == dbName || ext[1..] in DbExtensions then Ok(Targets(None, Some(path)))
      else if tail == fileName || ext[1..] in TextExtensions then Ok(Targets(Some(path), None))
      else Raised(ValueError("Could not resolve to database or text file " + path))
    case OtherKind =>
      Raised(ValueError("Could not handle path: " + path + " | Was not found a directory or file"))
    case Missing =>
      var ext := PosixPath.Ext(path);
      if |ext| > 1 && ext[1..] in DbExtensions then Ok(Targets(None, Some(path)))
      else Ok(Targets(Some(path), None))
  }

  /** An existing file whose last component is `stem.x`: the database when
      `x` is a database extension or the component is `db_name`, otherwise
      the text log when `x` is a text extension or the component is
      `file_name`, otherwise a `ValueError`. */
  lemma ExistingFileByExtension(path: string, stem: string, x: string, fileName: string, dbName: string)
    requires PosixPath.Tail(path) == stem + "." + x
    requires '.' !in x && exists k :: 0 <= k < |stem| && stem[k] != '.'
    ensures var name := stem + "." + x;
            var r := Classify(path, RegularFile, fileName, dbName);
            && (name == dbName || x in DbExtensions ==> r == Ok(Targets(None, Some(path))))
            && (name != dbName && x !in DbExtensions && (name == fileName || x in TextExtensions) ==>
                  r == Ok(Targets(Some(path), None)))
            && (name != dbName && x !in DbExtensions && name != fileName && x !in TextExtensions ==>
                  r == Raised(ValueError("Could not resolve to database or text file " + path)))
  {
    var name := stem + "." + x;
    assert '/' !in stem && '/' !in x by {
      assert '/' !in name;
      assert forall k :: 0 <= k < |stem| ==> stem[k] == name[k];
      assert forall k :: 0 <= k < |x| ==> x[k] == name[|stem| + 1 + k];
    }
    assert PosixPath.RFind(stem, '/') == -1;
    PosixPath.SplitExtOf(stem, x);
    assert ("." + x)[1..] == x;
  }

  /** An existing file whose last component has no dot is a text log. */
  lemma ExistingFileWithoutDot(path: string, fileName: string, dbName: string)
    requires '.' !in PosixPath.Tail(path)
    ensures Classify(path, RegularFile, fileName, dbName) == Ok(Targets(Some(path), None))
  {
    PosixPath.NoDotNoExt(PosixPath.Tail(path));
  }

  /** An existing file whose last component is dots followed by a dotless
      rest, such as `.db`, has no extension and is a text log, even when
      that component is `db_name`. */
  lemma HiddenFileIsText(path: string, dots: string, rest: string, fileName: string, dbName: string)
    requires PosixPath.Tail(path) == dots + rest
    requires forall k :: 0 <= k < |dots| ==> dots[k] == '.'
    requires '.' !in rest
    ensures Classify(path, RegularFile, fileName, dbName) == Ok(Targets(Some(path), None))
  {
    var tail := PosixPath.Tail(path);
    assert '/' !in dots + rest;
    PosixPath.LeadingDotsNoExt([], dots, rest);
    assert [] + dots + rest == tail;
  }

  /** A path to be created whose last component is dots followed by a
      dotless rest, such as `logs/.db`, becomes the text log. */
  lemma MissingHiddenIsText(dir: string, dots: string, rest: string, fileName: string, dbName: string)
    requires dir == [] || dir[|dir| - 1] == '/'
    requires forall k :: 0 <= k < |dots| ==> dots[k] == '.'
    requires '/' !in dots + rest && '.' !in rest
    ensures var path := dir + dots + rest;
            Classify(path, Missing, fileName, dbName) == Ok(Targets(Some(path), None))
  {
    PosixPath.LeadingDotsNoExt(dir, dots, rest);
  }

  /** A path that does not exist yet becomes the database exactly when its
      extension is a database extension, and the text log otherwise. */
  lemma MissingByExtension(stem: string, x: string, fileName: string, dbName: string)
    requires '/' !in x && '.' !in x && PosixPath.HasStem(stem)
    ensures var path := stem + "." + x;
            Classify(path, Missing, fileName, dbName)
              == if x in DbExtensions then Ok(Targets(None, Some(path))) else Ok(Targets(Some(path), None))
  {
    PosixPath.SplitExtOf(stem, x);
    assert ("." + x)[1..] == x;
  }

  /** An existing file named `BAD.FILE`, with the default target names, is
      refused. */
  lemma BadExtensionRefused(path: string)
    requires PosixPath.Tail(path) == "BAD.FILE"
    ensures Classify(path, RegularFile, "diary.txt", "diary.db")
            == Raised(ValueError("Could not resolve to database or text file " + path))
  {
    assert "BAD.FILE" == "BAD" + "." + "FILE";
    assert "BAD"[0] != '.';
    assert "BAD.FILE" != "diary.db" && "BAD.FILE" != "diary.txt" by {
      assert "BAD.FILE"[0] != "diary.db"[0];
    }
    assert "FILE" !in DbExtensions && "FILE" !in TextExtensions by {
      assert |"FILE"| == 4;
      assert "FILE"[0] == 'F';
    }
    ExistingFileByExtension(path, "BAD", "FILE", "diary.txt", "diary.db");
  }

  // The diary's state.

  /** The `log_format` used for events without a formatter. `minimal`,
      `easy_read` and user formats are `Custom` functions. */
  datatype LogFormat = StandardFormat | AlarmsFormat | Custom(fn: Callable)

  /** A database row: the event's time, level name and payload. */
  datatype Row = Row(inputDT: Value, level: string, log: Value)

  /** A repeating timer set by `set_timer`. */
  datatype Timer = Timer(interval: Value, fn: Value, args: Levels.CallArgs)

  datatype Diary = Diary(
    targets: Targets,
    format: LogFormat,
    debugEnabled: bool,
    /** The file the database connection was opened on, once `set_db` ran. */
    logdb: Option<string>,
    /** The lines appended to the text log. */
    lines: seq<string>,
    /** The rows inserted into the database. */
    rows: seq<Row>,
    lastLogged: Option<Event>)

  /** A diary with its logging thread (present exactly when it is
      asynchronous) and its timer. */
  datatype System = System(diary: Diary, thread: Option<LogThread.Worker<Event>>, timer: Option<Timer>)

  /** `Diary(path, file_name, db_name, log_format=format, async=isAsync,
      debug_enabled=debugEnabled)` for a path of the given kind. An
      asynchronous diary starts its thread, which will open the database;
      a synchronous one opens the database itself. */
  function Construct(path: string, kind: PathKind, fileName: string, dbName: string, format: LogFormat,
                     isAsync: bool, debugEnabled: bool): (r: Outcome<System, Event>)
    ensures r.Ok? <==> Classify(path, kind, fileName, dbName).Ok?
    ensures r.Ok? ==> var t := Classify(path, kind, fileName, dbName).value;
                      && r.value.diary.targets == t
                      && r.value.diary.lines == [] && r.value.diary.rows == []
                      && r.value.diary.lastLogged == None && r.value.timer == None
                      && (isAsync ==> r.value.thread == Some(LogThread.Spawn(t.dbFile.Some?))
                                      && r.value.diary.logdb == None)
                      && (!isAsync ==> r.value.thread == None && r.value.diary.logdb == t.dbFile)
  {
    match Classify(path, kind, fileName, dbName)
    case Raised(x) => Raised(x)
    case Ok(t) =>
      var d := Diary(t, format, debugEnabled, None, [], [], None);
      if isAsync then Ok(System(d, Some(LogThread.Spawn(t.dbFile.Some?)), None))
      else if t.dbFile.Some? then Ok(System(SetDb(d).state, None, None))
      else Ok(System(d, None, None))
  }

  /** `set_db`: opens the database on the database file, and refuses when
      there is none. */
  function SetDb(d: Diary): (r: After<Diary, (), Event>)
    ensures r.result.Raised? <==> d.targets.dbFile.None?
    ensures r.result.Raised? ==>
              r.state == d && r.result.exc == ValueError("Cannot set a database without a database file")
    ensures r.result.Ok? ==> r.state == d.(logdb := d.targets.dbFile)
  {
    if d.targets.dbFile.None? then After(d, Raised(ValueError("Cannot set a database without a database file")))
    else After(d.(logdb := d.targets.dbFile), Ok(()))
  }

  /** A keyword argument naming one of `set_timer`'s own parameters, which
      Python refuses when binding the call. */
  predicate TimerClashes(args: Levels.CallArgs) {
    "self" in args.keywords || "interval" in args.keywords || "func" in args.keywords
  }

  /** `set_timer(interval, func, *args, **kwargs)`: only an asynchronous
      diary may have a timer. */
  function SetTimer(sys: System, interval: Value, fn: Value, args: Levels.CallArgs): (r: After<System, (), Event>)
    ensures r.result.Raised? <==> sys.thread.None? || TimerClashes(args)
    ensures r.result.Raised? ==> r.state == sys
    ensures TimerClashes(args) ==> r.result.exc.TypeError?
    ensures !TimerClashes(args) && sys.thread.None? ==>
              r.result.exc == RuntimeError("In order to set a timer async must be enabled")
    ensures r.result.Ok? ==> r.state == sys.(timer := Some(Timer(interval, fn, args)))
  {
    if TimerClashes(args) then After(sys, Raised(TypeError("set_timer() got multiple values for an argument")))
    else if sys.thread.None? then After(sys, Raised(RuntimeError("In order to set a timer async must be enabled")))
    else After(sys.(timer := Some(Timer(interval, fn, args))), Ok(()))
  }

  // Writing one event.

  /** The row the database logger inserts for an event. */
  function DbRow(e: Event): (r: Row)
    ensures r.inputDT == e.dt && r.log == e.info && r.level == Formats.StringifyLevel(e.level)
  {
    Row(e.dt, Formats.StringifyLevel(e.level), e.info)
  }

  /** The diary's `log_format` applied to an event. */
  function FormatLine(f: LogFormat, e: Event, invoke: Events.Invoker): string {
    match f
    case StandardFormat => Formats.Standard(e.level, e.dt, e.info)
    case AlarmsFormat => Formats.Alarms(e.level, e.dt, e.info)
    case Custom(fn) => invoke(fn, e)
  }

  /** The text `_write` puts in the log, as the code chooses it: the log
      format when the event's formatter is `None`, otherwise the event's own
      `formatted()`. */
  function TextLineAsWritten(f: LogFormat, e: Event, invoke: Events.Invoker): Outcome<string, Event> {
    if e.formatter == NoneV then Ok(FormatLine(f, e, invoke)) else Events.Formatted(e, invoke)
  }

  /** The text `_write` puts in the log, choosing as `set_formatter` does:
      the event's own rendering exactly when its formatter is truthy. */
  function TextLine(f: LogFormat, e: Event, invoke: Events.Invoker): (r: Outcome<string, Event>)
    ensures !Truthy(e.formatter) ==> r == Ok(FormatLine(f, e, invoke))
    ensures Truthy(e.formatter) ==> r == Events.Formatted(e, invoke)
  {
    if !Truthy(e.formatter) then Ok(FormatLine(f, e, invoke)) else Events.Formatted(e, invoke)
  }

  /** The rendering an event carries agrees with its formatter, as it does
      whenever `set_formatter` returned normally. */
  predicate Consistent(e: Event) {
    && (Truthy(e.formatter) ==> e.formatter.Str? || e.formatter.Func?)
    && (Truthy(e.formatter) && e.formatter.Str? ==> e.rendering == Events.ViaTemplate)
    && (Truthy(e.formatter) && e.formatter.Func? ==> e.rendering == Events.ViaFunction)
  }

  /** Events made by a successful constructor call are consistent, and
      re-levelling keeps them so. */
  lemma MadeEventsConsistent(info: Value, level: Value, dt: Value, now: Value, f: Value, repr: string, l: Value)
    requires Events.New(info, level, dt, now, f, repr).Ok?
    ensures Consistent(Events.New(info, level, dt, now, f, repr).value)
    ensures Consistent(Events.SetLevel(Events.New(info, level, dt, now, f, repr).value, l))
  {
  }

  /** `_write` of `e`: the database row first, when there is a database
      file; then the text line, when there is a text file; then the event
      becomes the last one logged. A step that raises stops it there,
      keeping what the earlier steps did. */
  function Write(d: Diary, e: Event, invoke: Events.Invoker): (r: After<Diary, (), Event>)
    ensures r.result.Ok? ==> r.state.lastLogged == Some(e)
    ensures r.result.Raised? ==> r.state.lastLogged == d.lastLogged
    ensures r.state.targets == d.targets && r.state.logdb == d.logdb && r.state.format == d.format
    ensures d.targets.dbFile.Some? && d.logdb.None? ==> r == After(d, Raised(AttributeError("log")))
    ensures d.targets.dbFile.None? ==> r.state.rows == d.rows
    ensures d.targets.dbFile.Some? && d.logdb.Some? ==> r.state.rows == d.rows + [DbRow(e)]
    ensures d.targets.logFile.None? || r.result.Raised? ==> r.state.lines == d.lines
    ensures d.targets.logFile.Some? && r.result.Ok? ==>
              TextLine(d.format, e, invoke).Ok? && r.state.lines == d.lines + [TextLine(d.format, e, invoke).value + "\n"]
    ensures r.result.Raised? <==> (d.targets.dbFile.Some? && d.logdb.None?)
                                  || (d.targets.logFile.Some? && TextLine(d.format, e, invoke).Raised?)
  {
    if d.targets.dbFile.Some? && d.logdb.None? then After(d, Raised(AttributeError("log")))
    else
      var d1 := if d.targets.dbFile.Some? then d.(rows := d.rows + [DbRow(e)]) else d;
      if d.targets.logFile.None? then After(d1.(lastLogged := Some(e)), Ok(()))
      else match TextLine(d.format, e, invoke)
        case Raised(x) => After(d1, Raised(x))
        case Ok(line) => After(d1.(lines := d1.lines + [line + "\n"], lastLogged := Some(e)), Ok(()))
  }

  /** Writing a consistent event never fails for want of a `formatted`
      attribute: only filling in a template can fail. */
  lemma ConsistentEventsHaveALine(f: LogFormat, e: Event, invoke: Events.Invoker)
    requires Consistent(e)
    ensures TextLine(f, e, invoke).Raised? ==> e.formatter.Str? && e.rendering == Events.ViaTemplate
    ensures TextLine(f, e, invoke) != Raised(AttributeError("formatted"))
  {
  }

  /** The code as written fails on an event made with the empty formatter:
      `set_formatter` installs no rendering for a falsy formatter, yet
      `_write` only falls back to the log format for `None`, so it calls a
      `formatted()` that does not exist. The corrected choice writes the
      log format. */
  lemma EmptyFormatterCounterexample(f: LogFormat, info: Value, level: Value, now: Value, invoke: Events.Invoker)
    ensures var e := Events.New(info, level, NoneV, now, Str(""), "<event>").value;
            && TextLineAsWritten(f, e, invoke) == Raised(AttributeError("formatted"))
            && TextLine(f, e, invoke) == Ok(FormatLine(f, e, invoke))
  {
  }

  /** The two choices agree on every event except one whose formatter is a
      falsy value other than `None`. */
  lemma TextLineAgreesExceptFalsy(f: LogFormat, e: Event, invoke: Events.Invoker)
    requires e.formatter == NoneV || Truthy(e.formatter)
    ensures TextLineAsWritten(f, e, invoke) == TextLine(f, e, invoke)
  {
  }

  /** With the standard format and no formatter, the line written for an
      event reads back as the event's level name, time and stripped payload. */
  lemma StandardLineReadsBack(d: Diary, e: Event, invoke: Events.Invoker)
    requires d.format == StandardFormat && !Truthy(e.formatter)
    requires ']' !in Formats.StringifyLevel(e.level) && ']' !in Text(e.dt)
    requires d.targets.logFile.Some? && (d.targets.dbFile.None? || d.logdb.Some?)
    ensures var r := Write(d, e, invoke);
            && r.result.Ok?
            && |r.state.lines| == |d.lines| + 1
            && var line := r.state.lines[|d.lines|];
               && line[|line| - 1] == '\n'
               && Formats.ParseStandard(line[..|line| - 1])
                    == Some((Formats.StringifyLevel(e.level), Text(e.dt), Formats.StringifyInfo(e.info)))
  {
    var text := Formats.Standard(e.level, e.dt, e.info);
    Formats.StandardParsesBack(Formats.StringifyLevel(e.level), Text(e.dt), Formats.StringifyInfo(e.info));
    assert (text + "\n")[..|text|] == text;
  }

  // Logging.

  /** What the caller hands to `log` or a level method: an `Event`, or any
      other object to be wrapped in one. */
  datatype Arg = EventArg(event: Event) | InfoArg(info: Value)

  /** The event `log` reports: the caller's own event, or `Event(info,
      level)` made at time `now` (its `repr()` text is `repr`). */
  function EventFor(arg: Arg, level: Levels.Handler<Event>, now: Value, repr: string): (e: Event)
    ensures arg.EventArg? ==> e == arg.event
    ensures arg.InfoArg? ==> e == Events.Make(arg.info, Func(level.fn), NoneV, now, repr)
  {
    match arg
    case EventArg(e) => e
    case InfoArg(v) => Events.Make(v, Func(level.fn), NoneV, now, repr)
  }

  /** The reporter `log` hands the level: the thread's `add` when the diary
      is asynchronous, `_write` otherwise. */
  function Report(sys: System, e: Event, invoke: Events.Invoker): (r: After<System, (), Event>)
    ensures sys.thread.Some? ==> r == After(sys.(thread := Some(LogThread.Add(sys.thread.value, e))), Ok(()))
    ensures sys.thread.None? ==>
              r == After(sys.(diary := Write(sys.diary, e, invoke).state), Write(sys.diary, e, invoke).result)
  {
    match sys.thread
    case Some(w) => After(sys.(thread := Some(LogThread.Add(w, e))), Ok(()))
    case None =>
      var a := Write(sys.diary, e, invoke);
      After(sys.(diary := a.state), a.result)
  }

  /** A keyword argument `log` refuses before its body runs: one naming
      `log`'s own parameters, or the level wrapper's. */
  predicate LogRefuses(kwargs: map<string, Value>) {
    "self" in kwargs || "info" in kwargs || "level" in kwargs || Levels.Clashes(Levels.CallArgs([], kwargs))
  }

  const ArgumentClash: string := "got multiple values for an argument"

  /** `log(info, level=level, **kwargs)` as the level methods call it,
      with `level` passed explicitly and `kwargs` the caller's other
      keywords. A keyword `self`, `info` or `level` among them fails the
      call to `log` itself, and a keyword `event` or `reporter` the call to
      the level; neither reports anything. */
  function Log(sys: System, arg: Arg, level: Levels.Handler<Event>, kwargs: map<string, Value>,
               now: Value, repr: string, invoke: Events.Invoker): After<System, (), Event> {
    if "self" in kwargs || "info" in kwargs || "level" in kwargs then After(sys, Raised(TypeError(ArgumentClash)))
    else
      Levels.Wrap(level.body, (s: System, e: Event) => Report(s, e, invoke), sys, EventFor(arg, level, now, repr),
                  Levels.CallArgs([], kwargs))
  }

  /** The outcome of a level method, and the argument as the caller sees it
      afterwards: an event passed in has been re-levelled in place. */
  datatype Call = Call(system: System, result: Outcome<(), Event>, arg: Arg)

  function Relevel(arg: Arg, level: Levels.Handler<Event>): (r: Arg)
    ensures arg.InfoArg? ==> r == arg
    ensures arg.EventArg? ==> r == EventArg(Events.SetLevel(arg.event, Func(level.fn)))
  {
    match arg
    case EventArg(e) => EventArg(Events.SetLevel(e, Func(level.fn)))
    case InfoArg(_) => arg
  }

  /** A keyword argument naming a level method's own parameters, which
      Python refuses before the method's body runs. */
  predicate MethodClashes(kwargs: map<string, Value>) {
    "self" in kwargs || "info" in kwargs
  }

  /** `info`, `warn` and `error`: re-level an event passed in, then `log`
      it at this level. */
  function AtLevel(sys: System, arg: Arg, level: Levels.Handler<Event>, kwargs: map<string, Value>,
                   now: Value, repr: string, invoke: Events.Invoker): Call {
    if MethodClashes(kwargs) then Call(sys, Raised(TypeError(ArgumentClash)), arg)
    else
      var arg' := Relevel(arg, level);
      var r := Log(sys, arg', level, kwargs, now, repr, invoke);
      Call(r.state, r.result, arg')
  }

  function Info(sys: System, arg: Arg, kwargs: map<string, Value>, now: Value, repr: string,
                invoke: Events.Invoker): Call {
    AtLevel(sys, arg, Levels.Info(), kwargs, now, repr, invoke)
  }

  function Warn(sys: System, arg: Arg, kwargs: map<string, Value>, now: Value, repr: string,
                invoke: Events.Invoker): Call {
    AtLevel(sys, arg, Levels.Warn(), kwargs, now, repr, invoke)
  }

  function Error(sys: System, arg: Arg, kwargs: map<string, Value>, now: Value, repr: string,
                 invoke: Events.Invoker): Call {
    AtLevel(sys, arg, Levels.Error(), kwargs, now, repr, invoke)
  }

  /** `debug`: the event is re-levelled whether or not debugging is
      enabled, but only logged when it is. */
  function Debug(sys: System, arg: Arg, kwargs: map<string, Value>, now: Value, repr: string,
                 invoke: Events.Invoker): (c: Call)
    ensures MethodClashes(kwargs) ==> c == Call(sys, Raised(TypeError(ArgumentClash)), arg)
    ensures !MethodClashes(kwargs) ==> c.arg == Relevel(arg, Levels.Debug())
    ensures !MethodClashes(kwargs) && !sys.diary.debugEnabled ==> c.system == sys && c.result == Ok(())
  {
    if MethodClashes(kwargs) then Call(sys, Raised(TypeError(ArgumentClash)), arg)
    else if sys.diary.debugEnabled then AtLevel(sys, arg, Levels.Debug(), kwargs, now, repr, invoke)
    else Call(sys, Ok(()), Relevel(arg, Levels.Debug()))
  }

  /** `log` refuses a keyword naming its own or the wrapper's parameters
      with a `TypeError`, before anything is reported. */
  lemma RefusedLogChangesNothing(sys: System, arg: Arg, level: Levels.Handler<Event>, kwargs: map<string, Value>,
                                 now: Value, repr: string, invoke: Events.Invoker)
    requires LogRefuses(kwargs)
    ensures var r := Log(sys, arg, level, kwargs, now, repr, invoke);
            r.state == sys && r.result.Raised? && r.result.exc.TypeError?
  {
  }

  /** A synchronous `log` reports by writing: the diary is as `_write`
      leaves it, and the call raises what `_write` raised, or else returns
      what the level returns. A refused keyword writes nothing. */
  lemma SyncLogWrites(sys: System, arg: Arg, level: Levels.Handler<Event>, kwargs: map<string, Value>,
                      now: Value, repr: string, invoke: Events.Invoker)
    requires sys.thread.None?
    ensures var e := EventFor(arg, level, now, repr);
            var w := Write(sys.diary, e, invoke);
            var r := Log(sys, arg, level, kwargs, now, repr, invoke);
            && (LogRefuses(kwargs) ==> r.state == sys && r.result.Raised? && r.result.exc.TypeError?)
            && (!LogRefuses(kwargs) ==>
                  && r.state == sys.(diary := w.state)
                  && r.result == (if w.result.Raised? then Raised(w.result.exc)
                                  else level.body(e, Levels.CallArgs([], kwargs))))
  {
  }

  lemma ErrorName()
    ensures Formats.StringifyLevel(Func(Levels.Error<Event>().fn)) == "ERROR"
  {
    var u := Upper("error");
    assert |u| == 5 && u[0] == 'E' && u[1] == 'R' && u[2] == 'R' && u[3] == 'O' && u[4] == 'R';
  }

  lemma InfoName()
    ensures Formats.StringifyLevel(Func(Levels.Info<Event>().fn)) == "INFO"
  {
    var u := Upper("info");
    assert |u| == 4 && u[0] == 'I' && u[1] == 'N' && u[2] == 'F' && u[3] == 'O';
  }

  /** A synchronous `info` of a plain payload, with the standard format and
      a text log, appends the standard line for level name `INFO`, the
      current time and the payload's stripped text, and returns normally.
      With an open database it first stores the row `(time, "INFO",
      payload)`, as a diary made on a directory does. */
  lemma SyncInfoWritesStandardLine(sys: System, v: Value, now: Value, repr: string, invoke: Events.Invoker)
    requires sys.thread.None? && sys.diary.format == StandardFormat
    requires sys.diary.targets.logFile.Some? && (sys.diary.targets.dbFile.None? || sys.diary.logdb.Some?)
    ensures var c := Info(sys, InfoArg(v), map[], now, repr, invoke);
            && c.result == Ok(())
            && c.system.diary.lines
                 == sys.diary.lines + [Formats.StandardLine("INFO", Text(now), Formats.Strip(Text(v))) + "\n"]
            && c.system.diary.rows
                 == sys.diary.rows + (if sys.diary.targets.dbFile.Some? then [Row(now, "INFO", v)] else [])
            && c.system.diary.lastLogged.Some?
            && c.system.diary.lastLogged.value.info == v
  {
    var e := EventFor(InfoArg(v), Levels.Info(), now, repr);
    SyncInfoIsWrite(sys, v, now, repr, invoke);
    InfoWriteStandard(sys.diary, v, now, repr, invoke);
    assert e.info == v;
  }

  /** The `_write` behind such an `info`: the row, then the standard line. */
  lemma InfoWriteStandard(d: Diary, v: Value, now: Value, repr: string, invoke: Events.Invoker)
    requires d.format == StandardFormat
    requires d.targets.logFile.Some? && (d.targets.dbFile.None? || d.logdb.Some?)
    ensures var e := EventFor(InfoArg(v), Levels.Info(), now, repr);
            var w := Write(d, e, invoke);
            && w.result.Ok?
            && w.state.lines == d.lines + [Formats.StandardLine("INFO", Text(now), Formats.Strip(Text(v))) + "\n"]
            && w.state.rows == d.rows + (if d.targets.dbFile.Some? then [Row(now, "INFO", v)] else [])
            && w.state.lastLogged == Some(e)
  {
    var e := EventFor(InfoArg(v), Levels.Info(), now, repr);
    var line := Formats.StandardLine("INFO", Text(now), Formats.Strip(Text(v)));
    InfoName();
    assert DbRow(e) == Row(now, "INFO", v);
    InfoStandardLine(v, now, repr, invoke);
    assert TextLine(d.format, e, invoke) == Ok(line);
    WriteSucceeds(d, e, invoke, line);
  }

  /** `_write` with an open database, or none, and a text line that renders:
      the row, then the line, and the event is the last logged. */
  lemma WriteSucceeds(d: Diary, e: Event, invoke: Events.Invoker, line: string)
    requires d.targets.logFile.Some? && (d.targets.dbFile.None? || d.logdb.Some?)
    requires TextLine(d.format, e, invoke) == Ok(line)
    ensures var w := Write(d, e, invoke);
            && w.result.Ok?
            && w.state.lines == d.lines + [line + "\n"]
            && w.state.rows == d.rows + (if d.targets.dbFile.Some? then [DbRow(e)] else [])
            && w.state.lastLogged == Some(e)
  {
  }

  /** A synchronous `info` of a payload with no keywords is one `_write`. */
  lemma SyncInfoIsWrite(sys: System, v: Value, now: Value, repr: string, invoke: Events.Invoker)
    requires sys.thread.None?
    ensures var w := Write(sys.diary, EventFor(InfoArg(v), Levels.Info(), now, repr), invoke);
            var c := Info(sys, InfoArg(v), map[], now, repr, invoke);
            && c.system == sys.(diary := w.state)
            && (w.result.Ok? ==> c.result == Ok(()))
  {
    var e := EventFor(InfoArg(v), Levels.Info(), now, repr);
    var none: map<string, Value> := map[];
    assert !MethodClashes(none) && !LogRefuses(none);
    SyncLogWrites(sys, InfoArg(v), Levels.Info(), none, now, repr, invoke);
    Levels.PlainLevelsOnlyReport(Levels.Info(), [], e, Levels.NoArgs);
  }

  lemma InfoStandardLine(v: Value, now: Value, repr: string, invoke: Events.Invoker)
    ensures var e := EventFor(InfoArg(v), Levels.Info(), now, repr);
            && !Truthy(e.formatter)
            && FormatLine(StandardFormat, e, invoke) == Formats.StandardLine("INFO", Text(now), Formats.Strip(Text(v)))
  {
    var e := EventFor(InfoArg(v), Levels.Info(), now, repr);
    InfoName();
    assert e.dt == now && e.info == v;
  }

  /** An asynchronous `log` only queues the event: nothing is written
      until the thread runs, and the call returns what the level returns. A
      refused keyword queues nothing. */
  lemma AsyncCallOnlyQueues(sys: System, arg: Arg, level: Levels.Handler<Event>, kwargs: map<string, Value>,
                            now: Value, repr: string, invoke: Events.Invoker)
    requires sys.thread.Some?
    ensures var e := EventFor(arg, level, now, repr);
            var r := Log(sys, arg, level, kwargs, now, repr, invoke);
            && (LogRefuses(kwargs) ==> r.state == sys && r.result.Raised? && r.result.exc.TypeError?)
            && (!LogRefuses(kwargs) ==>
                  && r.state == sys.(thread := Some(LogThread.Add(sys.thread.value, e)))
                  && r.result == level.body(e, Levels.CallArgs([], kwargs)))
  {
  }

  /** A level method refuses a keyword `self` or `info` before it
      re-levels anything, and a keyword `level` after the event passed in
      was re-levelled, when it calls `log`. */
  lemma LevelMethodClashes(sys: System, arg: Arg, level: Levels.Handler<Event>, kwargs: map<string, Value>,
                           now: Value, repr: string, invoke: Events.Invoker)
    ensures var c := AtLevel(sys, arg, level, kwargs, now, repr, invoke);
            && (MethodClashes(kwargs) ==> c == Call(sys, Raised(TypeError(ArgumentClash)), arg))
            && (!MethodClashes(kwargs) && "level" in kwargs ==>
                  c == Call(sys, Raised(TypeError(ArgumentClash)), Relevel(arg, level)))
  {
  }

  /** `error(info, raises=True)` on a synchronous diary writes the event
      first, storing the row `(time, "ERROR", payload)` when a database is
      open, and then raises `Exception(event)`. */
  lemma SyncErrorWritesThenRaises(sys: System, v: Value, now: Value, repr: string, invoke: Events.Invoker)
    requires sys.thread.None?
    ensures var e := EventFor(InfoArg(v), Levels.Error(), now, repr);
            var c := Error(sys, InfoArg(v), map["raises" := Bool(true)], now, repr, invoke);
            && c.system.diary == Write(sys.diary, e, invoke).state
            && (Write(sys.diary, e, invoke).result.Ok? ==> c.result == Raised(Thrown("Exception", e)))
            && (sys.diary.targets.dbFile.Some? && sys.diary.logdb.Some? ==>
                  c.system.diary.rows == sys.diary.rows + [Row(now, "ERROR", v)])
  {
    var e := EventFor(InfoArg(v), Levels.Error(), now, repr);
    ErrorName();
    assert DbRow(e) == Row(now, "ERROR", v);
    Levels.ErrorDefaults<Event>([], e);
    Levels.ErrorRaisesOnRequest<Event>([], e, Levels.CallArgs([], map["raises" := Bool(true)]));
    assert !LogRefuses(map["raises" := Bool(true)]);
  }

  /** `debug` on a diary with debugging off logs nothing, yet the caller's
      event has still been given the debug level, unless a keyword `self` or
      `info` made the call fail first. */
  lemma DisabledDebugOnlyRelevels(sys: System, e: Event, kwargs: map<string, Value>, now: Value, repr: string,
                                  invoke: Events.Invoker)
    requires !sys.diary.debugEnabled
    ensures var c := Debug(sys, EventArg(e), kwargs, now, repr, invoke);
            && c.system == sys
            && (MethodClashes(kwargs) ==> c.result.Raised? && c.arg == EventArg(e))
            && (!MethodClashes(kwargs) ==>
                  && c.result == Ok(())
                  && c.arg.event.level == Func(Levels.Debug<Event>().fn)
                  && c.arg.event.levelStr == "DEBUG")
  {
    assert Formats.StringifyLevel(Func(Levels.Debug<Event>().fn)) == Upper("debug");
  }

  // The thread, and closing.

  /** The diary as the logging thread sees it. */
  function HostOf(invoke: Events.Invoker): LogThread.Host<Diary, Event> {
    LogThread.Host(d => SetDb(d), (d, e) => Write(d, e, invoke))
  }

  /** One step of the logging thread, when it can take one. */
  function WorkerStep(sys: System, invoke: Events.Invoker): (r: Option<System>)
    ensures r.Some? ==> sys.thread.Some? && r.value.thread.Some? && r.value.timer == sys.timer
    ensures r.Some? ==> LogThread.Measure(r.value.thread.value) < LogThread.Measure(sys.thread.value)
  {
    match sys.thread
    case None => None
    case Some(w) =>
      match LogThread.Step(HostOf(invoke), w, sys.diary)
      case None => None
      case Some((w', d')) =>
        LogThread.StepShrinks(HostOf(invoke), w, sys.diary);
        Some(sys.(diary := d', thread := Some(w')))
  }

  /** The first part of `close`: an asynchronous diary joins its thread,
      which writes what is queued before the sentinel. */
  function JoinThread(sys: System, invoke: Events.Invoker): (r: System)
    ensures sys.thread.None? ==> r == sys
    ensures sys.thread.Some? ==> r.thread.Some? && r.timer == sys.timer
  {
    match sys.thread
    case None => sys
    case Some(w) =>
      var (w', d') := LogThread.Settle(HostOf(invoke), LogThread.Signal(w), sys.diary);
      System(d', Some(w'), sys.timer)
  }

  /** `close` (the `cleanup` hook): join the thread, then close the
      database connection, then drop the timer. A diary with a database
      file whose connection was never opened fails on `None.close()` with
      an `AttributeError`, and keeps its timer. */
  function Close(sys: System, invoke: Events.Invoker): (r: After<System, (), Event>)
    ensures var j := JoinThread(sys, invoke);
            && (r.result.Raised? <==> j.diary.targets.dbFile.Some? && j.diary.logdb.None?)
            && (r.result.Raised? ==> r == After(j, Raised(AttributeError("close"))))
            && (r.result.Ok? ==> r.state == j.(timer := None))
    ensures sys.thread.None? && r.result.Ok? ==> r.state == sys.(timer := None)
  {
    var j := JoinThread(sys, invoke);
    if j.diary.targets.dbFile.Some? && j.diary.logdb.None? then After(j, Raised(AttributeError("close")))
    else After(j.(timer := None), Ok(()))
  }

  /** Once closed, the thread has ended, whatever state it was in: it
      returned at a sentinel or an exception killed it. */
  lemma CloseEndsThread(sys: System, invoke: Events.Invoker)
    requires sys.thread.Some?
    ensures Close(sys, invoke).state.thread.value.phase in {LogThread.Finished, LogThread.Died}
  {
    LogThread.JoinEnds(HostOf(invoke), sys.thread.value, sys.diary);
  }

  /** Closing again changes nothing the caller can see: the second `join`
      queues another sentinel behind a thread that has already ended, so
      nothing more is written, and the database step fails or succeeds as
      it did the first time. */
  lemma CloseTwiceWritesNothing(sys: System, invoke: Events.Invoker)
    ensures var c := Close(sys, invoke);
            var c2 := Close(c.state, invoke);
            && c2.state.diary == c.state.diary
            && c2.result == c.result
            && (sys.thread.Some? ==> c2.state.thread.value.phase == c.state.thread.value.phase)
  {
    var c := Close(sys, invoke);
    if sys.thread.Some? {
      CloseEndsThread(sys, invoke);
      LogThread.EndedThreadIgnoresQueue(HostOf(invoke), c.state.thread.value, c.state.diary,
                                        EventFor(InfoArg(NoneV), Levels.Info(), NoneV, ""));
    }
  }

  // Asynchronous and synchronous logging end in the same place.

  /** `info` of each payload in turn, results ignored. */
  function InfoEach(sys: System, vs: seq<Value>, now: Value, repr: string, invoke: Events.Invoker): System
    decreases |vs|
  {
    if vs == [] then sys
    else InfoEach(Info(sys, InfoArg(vs[0]), map[], now, repr, invoke).system, vs[1..], now, repr, invoke)
  }

  /** The events `info` makes of the payloads. */
  function InfoEvents(vs: seq<Value>, now: Value, repr: string): (es: seq<Event>)
    ensures |es| == |vs|
    ensures forall k :: 0 <= k < |vs| ==> es[k] == EventFor(InfoArg(vs[k]), Levels.Info(), now, repr)
  {
    seq(|vs|, k requires 0 <= k < |vs| => EventFor(InfoArg(vs[k]), Levels.Info(), now, repr))
  }

  /** `_write` of each event in turn, results ignored: what a synchronous
      diary does. */
  function WriteEach(d: Diary, es: seq<Event>, invoke: Events.Invoker): Diary
    decreases |es|
  {
    if es == [] then d else WriteEach(Write(d, es[0], invoke).state, es[1..], invoke)
  }

  lemma {:induction false} SyncInfoEachWrites(sys: System, vs: seq<Value>, now: Value, repr: string,
                                              invoke: Events.Invoker)
    requires sys.thread.None?
    ensures InfoEach(sys, vs, now, repr, invoke).diary == WriteEach(sys.diary, InfoEvents(vs, now, repr), invoke)
    ensures InfoEach(sys, vs, now, repr, invoke).thread == None
    decreases |vs|
  {
    if vs != [] {
      var e := EventFor(InfoArg(vs[0]), Levels.Info(), now, repr);
      SyncInfoIsWrite(sys, vs[0], now, repr, invoke);
      var sys' := Info(sys, InfoArg(vs[0]), map[], now, repr, invoke).system;
      SyncInfoEachWrites(sys', vs[1..], now, repr, invoke);
      assert InfoEvents(vs, now, repr)[1..] == InfoEvents(vs[1..], now, repr);
    }
  }

  lemma {:induction false} AsyncInfoEachQueues(sys: System, vs: seq<Value>, now: Value, repr: string,
                                               invoke: Events.Invoker)
    requires sys.thread.Some?
    ensures InfoEach(sys, vs, now, repr, invoke)
            == sys.(thread := Some(sys.thread.value.(queue := sys.thread.value.queue
                                                              + LogThread.Queued(InfoEvents(vs, now, repr)))))
    decreases |vs|
  {
    var w := sys.thread.value;
    if vs == [] {
      assert w.queue + LogThread.Queued(InfoEvents(vs, now, repr)) == w.queue;
    } else {
      var e := EventFor(InfoArg(vs[0]), Levels.Info(), now, repr);
      AsyncInfoQueues(sys, vs[0], now, repr, invoke);
      var sys' := sys.(thread := Some(LogThread.Add(w, e)));
      AsyncInfoEachQueues(sys', vs[1..], now, repr, invoke);
      QueuedInfoEvents(w.queue, vs, now, repr);
    }
  }

  lemma AsyncInfoQueues(sys: System, v: Value, now: Value, repr: string, invoke: Events.Invoker)
    requires sys.thread.Some?
    ensures Info(sys, InfoArg(v), map[], now, repr, invoke).system
            == sys.(thread := Some(LogThread.Add(sys.thread.value, EventFor(InfoArg(v), Levels.Info(), now, repr))))
  {
    AsyncCallOnlyQueues(sys, InfoArg(v), Levels.Info(), map[], now, repr, invoke);
  }

  lemma QueuedInfoEvents(q: seq<LogThread.Entry<Event>>, vs: seq<Value>, now: Value, repr: string)
    requires vs != []
    ensures q + [LogThread.Item(EventFor(InfoArg(vs[0]), Levels.Info(), now, repr))]
              + LogThread.Queued(InfoEvents(vs[1..], now, repr))
            == q + LogThread.Queued(InfoEvents(vs, now, repr))
  {
    var es := InfoEvents(vs, now, repr);
    InfoEventsTail(vs, now, repr);
    LogThread.QueuedCons(es);
    assert q + [LogThread.Item(es[0])] + LogThread.Queued(es[1..])
           == q + ([LogThread.Item(es[0])] + LogThread.Queued(es[1..]));
  }

  lemma InfoEventsTail(vs: seq<Value>, now: Value, repr: string)
    requires vs != []
    ensures InfoEvents(vs, now, repr)[1..] == InfoEvents(vs[1..], now, repr)
  {
  }

  /** When no write raises, writing the events one by one as a synchronous
      diary does and as the thread does give the same diary. */
  lemma {:induction false} WriteEachIsWriteAll(d: Diary, es: seq<Event>, invoke: Events.Invoker)
    requires LogThread.WriteAll(HostOf(invoke), d, es).result.Ok?
    ensures WriteEach(d, es, invoke) == LogThread.WriteAll(HostOf(invoke), d, es).state
    decreases |es|
  {
    if es != [] {
      WriteEachIsWriteAll(Write(d, es[0], invoke).state, es[1..], invoke);
    }
  }

  /** Closing a diary whose thread has not started yet: the thread opens
      the database if it was asked to, writes every queued event in order
      and returns at the sentinel, unless a write raises. */
  lemma CloseRunsQueue(d: Diary, es: seq<Event>, setsDb: bool, timer: Option<Timer>, invoke: Events.Invoker)
    requires setsDb ==> d.targets.dbFile.Some?
    ensures var d1 := if setsDb then SetDb(d).state else d;
            var closed := Close(System(d, Some(LogThread.Worker(LogThread.Queued(es), LogThread.Starting, setsDb)), timer), invoke).state;
            LogThread.WriteAll(HostOf(invoke), d1, es).result.Ok? ==>
              && closed.diary == LogThread.WriteAll(HostOf(invoke), d1, es).state
              && closed.thread == Some(LogThread.Worker([], LogThread.Finished, setsDb))
  {
    var h := HostOf(invoke);
    var q := LogThread.Queued(es);
    var d1 := if setsDb then SetDb(d).state else d;
    LogThread.ItemsOnly(es);
    assert LogThread.Signal(LogThread.Worker(q, LogThread.Starting, setsDb))
           == LogThread.Worker(q + [LogThread.Stop], LogThread.Starting, setsDb);
    LogThread.StartsWithSetDb(h, q + [LogThread.Stop], setsDb, d);
    if setsDb {
      assert h.setDb(d) == SetDb(d);
    }
    LogThread.JoinWritesEverything(h, q, setsDb, d1);
    assert LogThread.Signal(LogThread.Worker(q, LogThread.Running, setsDb))
           == LogThread.Worker(q + [LogThread.Stop], LogThread.Running, setsDb);
  }

  /** The synchronous and the asynchronous diary built from the same
      arguments differ only in who opens the database, and when. */
  lemma ConstructedAlike(path: string, kind: PathKind, fileName: string, dbName: string,
                         format: LogFormat, debugEnabled: bool)
    requires Classify(path, kind, fileName, dbName).Ok?
    ensures var sync := Construct(path, kind, fileName, dbName, format, false, debugEnabled).value;
            var async := Construct(path, kind, fileName, dbName, format, true, debugEnabled).value;
            var setsDb := async.diary.targets.dbFile.Some?;
            && sync.thread == None
            && async.thread == Some(LogThread.Worker([], LogThread.Starting, setsDb))
            && sync.diary == (if setsDb then SetDb(async.diary).state else async.diary)
  {
  }

  /** Asynchronous logging, once closed, leaves exactly the diary that
      synchronous logging of the same payloads leaves, provided no write
      raises: the thread opens the database the synchronous constructor
      opened, and writes the queued events in the order they were logged. */
  lemma AsyncMatchesSyncAfterClose(path: string, kind: PathKind, fileName: string, dbName: string,
                                   format: LogFormat, debugEnabled: bool, vs: seq<Value>,
                                   now: Value, repr: string, invoke: Events.Invoker)
    requires Classify(path, kind, fileName, dbName).Ok?
    ensures var sync := Construct(path, kind, fileName, dbName, format, false, debugEnabled).value;
            var async := Construct(path, kind, fileName, dbName, format, true, debugEnabled).value;
            var closed := Close(InfoEach(async, vs, now, repr, invoke), invoke).state;
            LogThread.WriteAll(HostOf(invoke), sync.diary, InfoEvents(vs, now, repr)).result.Ok? ==>
              && closed.diary == InfoEach(sync, vs, now, repr, invoke).diary
              && closed.thread == Some(LogThread.Worker([], LogThread.Finished, async.thread.value.setsDb))
  {
    var sync := Construct(path, kind, fileName, dbName, format, false, debugEnabled).value;
    var async := Construct(path, kind, fileName, dbName, format, true, debugEnabled).value;
    var es := InfoEvents(vs, now, repr);
    var setsDb := async.diary.targets.dbFile.Some?;
    ConstructedAlike(path, kind, fileName, dbName, format, debugEnabled);
    AsyncInfoEachQueues(async, vs, now, repr, invoke);
    assert [] + LogThread.Queued(es) == LogThread.Queued(es);
    assert InfoEach(async, vs, now, repr, invoke)
           == System(async.diary, Some(LogThread.Worker(LogThread.Queued(es), LogThread.Starting, setsDb)), async.timer);
    SyncInfoEachWrites(sync, vs, now, repr, invoke);
    if LogThread.WriteAll(HostOf(invoke), sync.diary, es).result.Ok? {
      WriteEachIsWriteAll(sync.diary, es, invoke);
      CloseRunsQueue(async.diary, es, setsDb, async.timer, invoke);
    }
  }
}

=== FILE: elementary_levels.dfy ===
/**
 The prototype level decorator of `elementary/levels.py`. It differs from
 the one in `Levels` in two ways: the reporter is handed the undecorated
 handler together with the message text, and the wrapper does not copy the
 handler's name, so every decorated level is a function named
 `level_wrapper`.
 */
module ElementaryLevels {
  import opened Py
  import Levels

  /** What the decorator leaves behind: a function called `level_wrapper`
      that closes over the undecorated handler. */
  datatype Level<!E> = Level(wrapper: Callable, logged: Levels.Handler<E>)

  function Decorate<E>(logged: Levels.Handler<E>): (l: Level<E>)
    ensures l.wrapper.name == "level_wrapper" && l.logged == logged
  {
    Level(Callable("level_wrapper", "<function level_wrapper>"), logged)
  }

  /** A keyword naming one of the prototype wrapper's own parameters. */
  predicate Clashes(args: Levels.CallArgs) {
    "text" in args.keywords || "reporter" in args.keywords
  }

  /** `level_wrapper(text, reporter, *args, **kwargs)`: `reporter(logged,
      text)` first, then `logged(text, *args, **kwargs)`. A keyword `text`
      or `reporter` fails the call before anything runs. */
  function Wrap<S, E>(l: Level<E>, report: (S, Callable, E) -> After<S, (), E>,
                      s: S, text: E, args: Levels.CallArgs): After<S, (), E>
  {
    if Clashes(args) then After(s, Raised(TypeError(Levels.ClashError)))
    else
      var reported := report(s, l.logged.fn, text);
      match reported.result
      case Raised(x) => After(reported.state, Raised(x))
      case Ok(_) => After(reported.state, l.logged.body(text, args))
  }

  /** A reporter that records each handler and text it is handed. */
  function Record<E>(log: seq<(Callable, E)>, handler: Callable, text: E): After<seq<(Callable, E)>, (), E> {
    After(log + [(handler, text)], Ok(()))
  }

  function Info<E>(): Level<E> { Decorate(Levels.Info()) }
  function Warn<E>(): Level<E> { Decorate(Levels.Warn()) }
  function Error<E>(): Level<E> { Decorate(Levels.Error()) }
  function Debug<E>(): Level<E> { Decorate(Levels.Debug()) }

  /** The reporter is handed the undecorated handler, not the wrapper, and
      the text, exactly once; the call then returns or raises exactly what
      the handler does. A clashing keyword reports nothing. */
  lemma ReportsHandlerAndText<E>(l: Level<E>, log: seq<(Callable, E)>, text: E, args: Levels.CallArgs)
    ensures !Clashes(args) ==>
              Wrap(l, Record, log, text, args) == After(log + [(l.logged.fn, text)], l.logged.body(text, args))
    ensures Clashes(args) ==>
              Wrap(l, Record, log, text, args) == After(log, Raised(TypeError(Levels.ClashError)))
  {
  }

  /** The prototype behaves like the final decorator when the call names
      neither wrapper's parameters: the same handler body gives the same
      outcome, and the reporter's record differs only in carrying the
      handler alongside the text. The two wrappers name their first
      parameter differently, so each reports exactly when the call's
      keywords avoid its own parameter names. */
  lemma AgreesWithLevels<E>(h: Levels.Handler<E>, log: seq<(Callable, E)>, texts: seq<E>, text: E,
                            args: Levels.CallArgs)
    requires |log| == |texts| && forall k :: 0 <= k < |log| ==> log[k].1 == texts[k]
    ensures var r := Wrap(Decorate(h), Record, log, text, args);
            var r' := Levels.Wrap(h.body, Levels.Record, texts, text, args);
            && |r.state| == |log| + (if Clashes(args) then 0 else 1)
            && |r'.state| == |texts| + (if Levels.Clashes(args) then 0 else 1)
            && (!Clashes(args) && !Levels.Clashes(args) ==>
                  && r.result == r'.result
                  && forall k :: 0 <= k < |r.state| ==> r.state[k].1 == r'.state[k])
  {
  }

  /** The decorated levels all carry the wrapper's name, so only the
      handler handed to the reporter tells them apart. */
  lemma WrapperNamesAlike<E>()
    ensures Info<E>().wrapper == Warn<E>().wrapper == Error<E>().wrapper == Debug<E>().wrapper
    ensures Info<E>().logged.fn.name == "info" && Warn<E>().logged.fn.name == "warn"
    ensures Error<E>().logged.fn.name == "error" && Debug<E>().logged.fn.name == "debug"
  {
  }

  /** `error(text, reporter, raises=True)` reports the error handler with
      the text and then raises `Exception(text)`. */
  lemma ErrorRaisesText<E>(log: seq<(Callable, E)>, text: E)
    ensures Wrap(Error<E>(), Record, log, text, Levels.CallArgs([], map["raises" := Bool(true)]))
            == After(log + [(Levels.Error<E>().fn, text)], Raised(Thrown("Exception", text)))
  {
    Levels.ErrorDefaults<E>([], text);
  }
}

=== FILE: events.dfy ===
/**
 The event record of `diary/events.py`: a timestamp, a payload, a level and
 the level's name kept in step with it, and an optional rendering installed
 by `set_formatter`. Python mutates events in place; here every mutator
 returns the changed event.
 */
module Events {
  import opened Py
  import Formats
  import Template

  /** The `formatted` attribute `set_formatter` installs: a closure over the
      event that reads `self.formatter` each time it is called. `Unset` is
      an event that has no such attribute. */
  datatype Rendering = Unset | ViaTemplate | ViaFunction

  /** An `Event` instance. `extra` holds attributes a subclass or a caller
      added; `repr` is the object's default `repr()` text. */
  datatype Event = Event(
    dt: Value,
    info: Value,
    level: Value,
    levelStr: string,
    formatter: Value,
    rendering: Rendering,
    extra: map<string, Value>,
    repr: string)

  /** Calls a user function (a function formatter or a log format) on an
      event; the functions themselves are outside the model. */
  type Invoker = (Callable, Event) -> string

  /** `level_str` agrees with `level`. */
  predicate Valid(e: Event) {
    e.levelStr == Formats.StringifyLevel(e.level)
  }

  /** The `repr()` of the closure stored in `formatted`. */
  const FormattedClosure := Callable("<lambda>", "<function Event.set_formatter.<locals>.<lambda>>")

  /** The event's `__dict__`: what a template formatter can name. */
  function Attributes(e: Event): (m: map<string, Value>)
    ensures "info" in m && m["info"] == e.info
    ensures "level" in m && m["level"] == e.level
    ensures "level_str" in m && m["level_str"] == Str(e.levelStr)
    ensures "dt" in m && m["dt"] == e.dt
    ensures "formatter" in m && m["formatter"] == e.formatter
    ensures "formatted" in m <==> e.rendering != Unset || "formatted" in e.extra
    ensures forall n :: n in e.extra && n !in {"dt", "info", "level", "level_str", "formatter", "formatted"}
                        ==> n in m && m[n] == e.extra[n]
  {
    var core := map["dt" := e.dt, "info" := e.info, "level" := e.level,
                    "level_str" := Str(e.levelStr), "formatter" := e.formatter];
    var closure := if e.rendering == Unset then map[] else map["formatted" := Func(FormattedClosure)];
    e.extra + core + closure
  }

  /** `set_formatter`: the formatter is stored first; a truthy `str`
      installs a template rendering, a truthy function a function rendering,
      and any other truthy value raises `ValueError` naming it. A falsy
      formatter installs nothing and leaves an earlier rendering in place. */
  function SetFormatter(e: Event, f: Value): (r: After<Event, (), Event>)
    ensures r.state.formatter == f
    ensures r.state.(formatter := e.formatter, rendering := e.rendering) == e
    ensures r.result.Raised? <==> Truthy(f) && !f.Str? && !f.Func?
    ensures r.result.Raised? ==> r.result.exc == ValueError("Could not identify formatter " + Text(f))
    ensures Truthy(f) && f.Str? ==> r.state.rendering == ViaTemplate
    ensures Truthy(f) && f.Func? ==> r.state.rendering == ViaFunction
    ensures !Truthy(f) || r.result.Raised? ==> r.state.rendering == e.rendering
  {
    var e' := e.(formatter := f);
    if !Truthy(f) then After(e', Ok(()))
    else if f.Str? then After(e'.(rendering := ViaTemplate), Ok(()))
    else if f.Func? then After(e'.(rendering := ViaFunction), Ok(()))
    else After(e', Raised(ValueError("Could not identify formatter " + Text(f))))
  }

  /** The fields `Event.__init__` sets before it calls `set_formatter`:
      `dt` defaults to the creation time `now`. */
  function Make(info: Value, level: Value, dt: Value, now: Value, repr: string): (e: Event)
    ensures dt != NoneV ==> e.dt == dt
    ensures dt == NoneV ==> e.dt == now
    ensures e.info == info && e.level == level && Valid(e)
    ensures e.formatter == NoneV && e.rendering == Unset && e.extra == map[]
  {
    Event(if dt == NoneV then now else dt, info, level, Formats.StringifyLevel(level),
          NoneV, Unset, map[], repr)
  }

  /** `Event(info, level, dt, formatter)`. */
  function New(info: Value, level: Value, dt: Value, now: Value, formatter: Value, repr: string)
    : (r: Outcome<Event, Event>)
    ensures r.Ok? <==> !Truthy(formatter) || formatter.Str? || formatter.Func?
    ensures r.Raised? ==> r.exc == ValueError("Could not identify formatter " + Text(formatter))
    ensures r.Ok? ==> var e := r.value;
              && Valid(e)
              && e.info == info && e.level == level
              && e.dt == (if dt == NoneV then now else dt)
              && e.formatter == formatter
              && (e.rendering == Unset <==> !Truthy(formatter))
  {
    var after := SetFormatter(Make(info, level, dt, now, repr), formatter);
    match after.result
    case Ok(_) => Ok(after.state)
    case Raised(x) => Raised(x)
  }

  /** `set_level`: the level and its name change together, nothing else. */
  function SetLevel(e: Event, level: Value): (r: Event)
    ensures Valid(r)
    ensures r.level == level
    ensures r.(level := e.level, levelStr := e.levelStr) == e
  {
    e.(level := level, levelStr := Formats.StringifyLevel(level))
  }

  function FromFormat(r: Template.Result<string>): (o: Outcome<string, Event>)
    ensures o.Ok? <==> r.Done?
    ensures r.Done? ==> o.value == r.value
  {
    match r
    case Done(s) => Ok(s)
    case Fail(Malformed(m)) => Raised(ValueError(m))
    case Fail(MissingKey(k)) => Raised(KeyError(k))
    case Fail(MissingIndex(i)) => Raised(IndexError(i))
    case Fail(Unsupported(f)) => Raised(OutsideModel("placeholder {" + f + "}"))
  }

  /** Calling `event.formatted()`. */
  function Formatted(e: Event, invoke: Invoker): Outcome<string, Event> {
    match e.rendering
    case Unset => Raised(AttributeError("formatted"))
    case ViaTemplate =>
      if e.formatter.Str? then FromFormat(Template.Format(e.formatter.s, Attributes(e)))
      else Raised(AttributeError("format"))
    case ViaFunction =>
      if e.formatter.Func? then Ok(invoke(e.formatter.fn, e))
      else Raised(TypeError("formatter is not callable"))
  }

  /** `str(event)`: the rendering when one is installed, otherwise the
      default `repr()`. */
  function Render(e: Event, invoke: Invoker): (r: Outcome<string, Event>)
    ensures e.rendering == Unset ==> r == Ok(e.repr)
    ensures e.rendering != Unset ==> r == Formatted(e, invoke)
  {
    if e.rendering == Unset then Ok(e.repr) else Formatted(e, invoke)
  }

  /** A freshly made event renders as its formatter says: a falsy formatter
      leaves `formatted()` unavailable and `str()` the default `repr()`, a
      template is filled from the event's current attributes, a function is
      applied to the event. */
  lemma NewRenders(info: Value, level: Value, dt: Value, now: Value, f: Value, repr: string, invoke: Invoker)
    requires New(info, level, dt, now, f, repr).Ok?
    ensures var e := New(info, level, dt, now, f, repr).value;
            && (!Truthy(f) ==> Formatted(e, invoke) == Raised(AttributeError("formatted"))
                               && Render(e, invoke) == Ok(repr))
            && (Truthy(f) && f.Str? ==>
                  Render(e, invoke) == FromFormat(Template.Format(f.s, Attributes(e))))
            && (Truthy(f) && f.Func? ==> Render(e, invoke) == Ok(invoke(f.fn, e)))
  {
  }

  /** A template rendering fails exactly when the template is malformed or
      names an attribute the event does not have. */
  lemma TemplateFailsIffMissing(e: Event, invoke: Invoker)
    requires e.rendering == ViaTemplate && e.formatter.Str?
    requires Template.Parse(e.formatter.s).Done?
    ensures var t := Template.Parse(e.formatter.s).value;
            Formatted(e, invoke).Ok?
            <==> forall k :: 0 <= k < |t| && t[k].Field? ==>
                   !Template.Positional(t[k].name) && t[k].name in Attributes(e)
  {
    var t := Template.Parse(e.formatter.s).value;
    Template.FormatIsParseThenRender(e.formatter.s, Attributes(e));
    Template.RenderSucceedsIff(t, Attributes(e));
  }

  /** A template rendering reads only the attributes its template names:
      two events with the same template whose attributes agree on those
      names render alike, whatever else differs. */
  lemma TemplateReadsOnlyNames(e: Event, e': Event, invoke: Invoker)
    requires e.rendering == ViaTemplate && e.formatter.Str?
    requires e'.rendering == ViaTemplate && e'.formatter == e.formatter
    requires Template.Parse(e.formatter.s).Done?
    requires forall n :: n in Template.Names(Template.Parse(e.formatter.s).value) ==>
               (n in Attributes(e) <==> n in Attributes(e')) && (n in Attributes(e) ==> Attributes(e)[n] == Attributes(e')[n])
    ensures Formatted(e', invoke) == Formatted(e, invoke)
  {
    var s := e.formatter.s;
    var t := Template.Parse(s).value;
    Template.FormatIsParseThenRender(s, Attributes(e));
    Template.FormatIsParseThenRender(s, Attributes(e'));
    Template.RenderReadsOnlyNames(t, Attributes(e), Attributes(e'));
  }

  /** Rendering reflects mutation: a template that does not name `info`
      renders the same before and after the payload changes. (One that
      names it renders the current payload; `LevelInfoTemplate` shows this
      for the template the tests use.) */
  lemma TemplateSeesCurrentInfo(e: Event, info: Value, invoke: Invoker)
    requires e.rendering == ViaTemplate && e.formatter.Str?
    requires Template.Parse(e.formatter.s).Done?
    ensures "info" !in Template.Names(Template.Parse(e.formatter.s).value)
            ==> Formatted(e.(info := info), invoke) == Formatted(e, invoke)
  {
    var s := e.formatter.s;
    var t := Template.Parse(s).value;
    var e' := e.(info := info);
    if "info" !in Template.Names(t) {
      Template.FormatIsParseThenRender(s, Attributes(e));
      Template.FormatIsParseThenRender(s, Attributes(e'));
      Template.RenderReadsOnlyNames(t, Attributes(e), Attributes(e'));
    }
  }

  /** The formatter of the event tests, `"({level})({info})"`, renders the
      level and the payload the event currently holds. */
  lemma LevelInfoTemplate(e: Event, invoke: Invoker)
    requires e.rendering == ViaTemplate && e.formatter == Str("({level})({info})")
    ensures Render(e, invoke) == Ok("(" + Text(e.level) + ")(" + Text(e.info) + ")")
  {
    var m := Attributes(e);
    LevelInfoParses();
    Template.FormatIsParseThenRender("({level})({info})", m);
    RenderLevelInfo(m);
  }

  lemma LevelInfoParses()
    ensures Template.Parse("({level})({info})") == Template.Done(LevelInfoTokens())
  {
    PrintLevelInfo();
    PlainLevelInfo();
    Template.ParsePrint(LevelInfoTokens());
  }

  /** The tokens of `"({level})({info})"`. */
  function LevelInfoTokens(): seq<Template.Token> {
    [Template.Lit('('), Template.Field("level"), Template.Lit(')'),
     Template.Lit('('), Template.Field("info"), Template.Lit(')')]
  }

  lemma PrintLevelInfo()
    ensures Template.Print(LevelInfoTokens()) == "({level})({info})"
  {
    var t := LevelInfoTokens();
    assert t[6..] == [];
    assert t[5..][0] == Template.Lit(')') && t[5..][1..] == t[6..];
    assert t[4..][0] == Template.Field("info") && t[4..][1..] == t[5..];
    assert t[3..][0] == Template.Lit('(') && t[3..][1..] == t[4..];
    assert t[2..][0] == Template.Lit(')') && t[2..][1..] == t[3..];
    assert t[1..][0] == Template.Field("level") && t[1..][1..] == t[2..];
    var p5 := [')'] + [];
    var p4 := ("{" + "info" + "}") + p5;
    var p3 := ['('] + p4;
    var p2 := [')'] + p3;
    var p1 := ("{" + "level" + "}") + p2;
    var p0 := ['('] + p1;
    assert Template.Print(t[6..]) == [];
    assert Template.Print(t[5..]) == p5;
    assert Template.Print(t[4..]) == p4;
    assert Template.Print(t[3..]) == p3;
    assert Template.Print(t[2..]) == p2;
    assert Template.Print(t[1..]) == p1;
    assert Template.Print(t) == p0;
    assert p0 == "({level})({info})";
  }

  lemma PlainLevelInfo()
    ensures Template.PlainTokens(LevelInfoTokens())
  {
    assert Template.PlainName("level");
    assert Template.PlainName("info");
  }

  lemma RenderLevelInfo(m: map<string, Value>)
    requires "level" in m && "info" in m
    ensures Template.Render(LevelInfoTokens(), m)
            == Template.Done("(" + Text(m["level"]) + ")(" + Text(m["info"]) + ")")
  {
    var t := LevelInfoTokens();
    var lv, inf := Text(m["level"]), Text(m["info"]);
    assert !Template.Positional("level") && !Template.Positional("info") by {
      assert "level"[0] == 'l' && "info"[0] == 'i';
    }
    assert t[6..] == [];
    assert t[5..][0] == Template.Lit(')') && t[5..][1..] == t[6..];
    assert t[4..][0] == Template.Field("info") && t[4..][1..] == t[5..];
    assert t[3..][0] == Template.Lit('(') && t[3..][1..] == t[4..];
    assert t[2..][0] == Template.Lit(')') && t[2..][1..] == t[3..];
    assert t[1..][0] == Template.Field("level") && t[1..][1..] == t[2..];
    assert t[0] == Template.Lit('(');
    var r5 := [')'] + [];
    var r4 := inf + r5;
    var r3 := ['('] + r4;
    var r2 := [')'] + r3;
    var r1 := lv + r2;
    var r0 := ['('] + r1;
    assert Template.Render(t[6..], m) == Template.Done([]);
    assert Template.Render(t[5..], m) == Template.Done(r5);
    assert Template.Render(t[4..], m) == Template.Done(r4);
    assert Template.Render(t[3..], m) == Template.Done(r3);
    assert Template.Render(t[2..], m) == Template.Done(r2);
    assert Template.Render(t[1..], m) == Template.Done(r1);
    assert Template.Render(t, m) == Template.Done(r0);
    assert r0 == "(" + lv + ")(" + inf + ")";
  }

  /** Clearing the formatter does not remove an installed rendering: the
      stale closure then finds no template to fill and `str()` raises. */
  lemma ClearingKeepsStaleRendering(e: Event, invoke: Invoker)
    requires e.rendering == ViaTemplate
    ensures var r := SetFormatter(e, NoneV);
            r.result.Ok? && r.state.formatter == NoneV
            && Render(r.state, invoke) == Raised(AttributeError("format"))
  {
  }
}

=== FILE: formats.dfy ===
/**
 The text formats of `diary/formats.py`: turning a level into its name,
 turning a payload into trimmed text, and the `standard` and `alarms` line
 layouts. A format reads only the level, timestamp and payload of an event,
 so the functions here take those three values.
 */
module Formats {
  import opened Py

  /** The name a level is logged under: a function level gives its
      upper-cased `__name__`, any other object its `str()` text. */
  function StringifyLevel(level: Value): (r: string)
    ensures level.Func? ==> |r| == |level.fn.name|
    ensures level.Func? ==> forall k :: 0 <= k < |r| ==> r[k] == UpperChar(level.fn.name[k])
    ensures !level.Func? ==> r == Text(level)
  {
    if level.Func? then Upper(level.fn.name) else Text(level)
  }

  /** Python's `str.isspace()` for one character, i.e. the characters
      `str.strip()` removes when called without arguments. */
  predicate IsSpace(c: char) {
    var n := c as int;
    (9 <= n <= 13) || (28 <= n <= 32) || n == 0x85 || n == 0xA0 || n == 0x1680
    || (0x2000 <= n <= 0x200A) || n == 0x2028 || n == 0x2029 || n == 0x202F
    || n == 0x205F || n == 0x3000
  }

  predicate AllSpace(s: string) {
    forall k :: 0 <= k < |s| ==> IsSpace(s[k])
  }

  /** Neither end of `s` is whitespace. */
  predicate Trimmed(s: string) {
    s == [] || (!IsSpace(s[0]) && !IsSpace(s[|s| - 1]))
  }

  /** `s` without its leading whitespace. */
  function TrimLeft(s: string): (r: string)
    ensures |r| <= |s| && r == s[|s| - |r|..]
    ensures AllSpace(s[..|s| - |r|])
    ensures r == [] || !IsSpace(r[0])
  {
    if s != [] && IsSpace(s[0]) then TrimLeft(s[1..]) else s
  }

  /** `s` without its trailing whitespace. */
  function TrimRight(s: string): (r: string)
    ensures |r| <= |s| && r == s[..|r|]
    ensures AllSpace(s[|r|..])
    ensures r == [] || !IsSpace(r[|r| - 1])
  {
    if s != [] && IsSpace(s[|s| - 1]) then TrimRight(s[..|s| - 1]) else s
  }

  /** Python's `str.strip()` with no arguments. */
  function Strip(s: string): (r: string)
    ensures Trimmed(r)
  {
    TrimRight(TrimLeft(s))
  }

  /** `stringify_info`: the payload's `str()` text, stripped. */
  function StringifyInfo(info: Value): (r: string)
    ensures Trimmed(r)
  {
    Strip(Text(info))
  }

  lemma {:induction false} TrimLeftSkips(a: string, m: string)
    requires AllSpace(a)
    requires m == [] || !IsSpace(m[0])
    ensures TrimLeft(a + m) == m
    decreases |a|
  {
    if a != [] {
      assert (a + m)[1..] == a[1..] + m;
      TrimLeftSkips(a[1..], m);
    } else {
      assert a + m == m;
    }
  }

  lemma {:induction false} TrimRightSkips(m: string, b: string)
    requires AllSpace(b)
    requires m == [] || !IsSpace(m[|m| - 1])
    ensures TrimRight(m + b) == m
    decreases |b|
  {
    if b != [] {
      assert (m + b)[..|m + b| - 1] == m + b[..|b| - 1];
      TrimRightSkips(m, b[..|b| - 1]);
    } else {
      assert m + b == m;
    }
  }

  /** `Strip` is characterised independently of how it is computed: the
      trimmed core of any "whitespace, core, whitespace" split is what
      `str.strip()` returns. */
  lemma {:induction false} StripCharacterised(a: string, m: string, b: string)
    requires AllSpace(a) && AllSpace(b) && Trimmed(m)
    ensures Strip(a + m + b) == m
  {
    if m == [] {
      assert a + m + b == a + b;
      assert AllSpace(a + b);
      TrimLeftSkips(a + b, []);
      assert a + b + [] == a + b;
      TrimRightSkips([], []);
    } else {
      assert a + m + b == a + (m + b);
      TrimLeftSkips(a, m + b);
      TrimRightSkips(m, b);
    }
  }

  /** Stripping twice is stripping once. */
  lemma StripIdempotent(s: string)
    ensures Strip(Strip(s)) == Strip(s)
  {
    var r := Strip(s);
    assert [] + r + [] == r;
    StripCharacterised([], r, []);
  }

  /** `standard`: `[LEVEL]:[time]: text`. */
  function Standard(level: Value, dt: Value, info: Value): string {
    StandardLine(StringifyLevel(level), Text(dt), StringifyInfo(info))
  }

  /** The layout of a `standard` line from its three parts. */
  function StandardLine(name: string, time: string, text: string): string {
    "[" + name + "]:[" + time + "]: " + text
  }

  /** The separator `alarms` puts around every part. */
  function AlarmSeparator(name: string): (sep: string)
    ensures |sep| == 3
  {
    if name == "ERROR" then "!!!" else " - "
  }

  /** `alarms`: the level name, time and text, each surrounded by the
      separator. */
  function Alarms(level: Value, dt: Value, info: Value): (r: string)
    ensures var sep := AlarmSeparator(StringifyLevel(level));
            |r| >= 6 && r[..3] == sep && r[|r| - 3..] == sep
  {
    var name := StringifyLevel(level);
    var sep := AlarmSeparator(name);
    var inner := name + sep + Text(dt) + sep + StringifyInfo(info);
    Enclose(sep, inner)
  }

  function Enclose(sep: string, inner: string): (r: string)
    ensures |r| == |inner| + 2 * |sep|
    ensures r[..|sep|] == sep && r[|r| - |sep|..] == sep
  {
    sep + inner + sep
  }

  /** The alarm separator is the exclamation marks exactly for the level
      named ERROR, in both directions. */
  lemma AlarmsShoutIffError(level: Value, dt: Value, info: Value)
    ensures Alarms(level, dt, info)[..3] == "!!!" <==> StringifyLevel(level) == "ERROR"
  {
    var sep := AlarmSeparator(StringifyLevel(level));
    if StringifyLevel(level) != "ERROR" {
      assert sep[0] == ' ';
    }
  }

  /** `t` first occurs in `x + t` at its end: no copy of `t` starts inside
      `x`, not even one that runs on into the `t` after it. */
  predicate NoEarlySep(x: string, t: string) {
    forall k :: 0 <= k < |x| ==> Window(x + t, k, |t|) != t
  }

  /** The `n` characters of `s` from position `k`. */
  function Window(s: string, k: nat, n: nat): string
    requires k + n <= |s|
  {
    s[k..k + n]
  }

  /** A part without the separator's first character cannot hide an early
      copy of it: for `!!!` a name without `!`, for ` - ` one without a
      space. */
  lemma NoEarlySepWithoutFirst(x: string, t: string)
    requires |t| > 0 && t[0] !in x
    ensures NoEarlySep(x, t)
  {
    forall k | 0 <= k < |x|
      ensures Window(x + t, k, |t|) != t
    {
      assert Window(x + t, k, |t|)[0] == x[k];
    }
  }

  /** The part of `s` before the first occurrence of `t`, and the part
      after it. */
  function SplitOn(s: string, t: string): (r: Option<(string, string)>)
    ensures r.Some? ==> s == r.value.0 + t + r.value.1
    decreases |s|
  {
    if |s| < |t| then None
    else if s[..|t|] == t then
      assert s == [] + t + s[|t|..];
      Some(([], s[|t|..]))
    else match SplitOn(s[1..], t)
      case None => None
      case Some((x, y)) =>
        assert s == [s[0]] + s[1..];
        Some(([s[0]] + x, y))
  }

  lemma {:induction false} SplitOnFirst(x: string, y: string, t: string)
    requires NoEarlySep(x, t)
    ensures SplitOn(x + t + y, t) == Some((x, y))
    decreases |x|
  {
    var s := x + t + y;
    if x == [] {
      assert s == t + y && s[..|t|] == t && s[|t|..] == y;
    } else {
      assert s[..|t|] == Window(x + t, 0, |t|);
      assert s[1..] == x[1..] + t + y;
      forall k | 0 <= k < |x[1..]|
        ensures Window(x[1..] + t, k, |t|) != t
      {
        assert Window(x[1..] + t, k, |t|) == Window(x + t, k + 1, |t|);
      }
      SplitOnFirst(x[1..], y, t);
      assert [x[0]] + x[1..] == x;
    }
  }

  /** Reads an `alarms` line back into separator, level name, time and
      text: the first three characters are the separator, which must also
      close the line, and the two first separators inside divide name,
      time and text. */
  function ParseAlarms(line: string): Option<(string, string, string, string)> {
    if |line| < 6 then None
    else
      var sep := line[..3];
      if line[|line| - 3..] != sep then None
      else match SplitOn(line[3..|line| - 3], sep)
        case None => None
        case Some((name, rest)) =>
          match SplitOn(rest, sep)
          case None => None
          case Some((time, text)) => Some((sep, name, time, text))
  }

  /** An `alarms` line determines its parts: when the separator first
      occurs right after the level name and right after the time, the line
      reads back as exactly the separator, the level name, the time and the
      stripped payload. */
  lemma AlarmsParsesBack(level: Value, dt: Value, info: Value)
    requires NoEarlySep(StringifyLevel(level), AlarmSeparator(StringifyLevel(level)))
    requires NoEarlySep(Text(dt), AlarmSeparator(StringifyLevel(level)))
    ensures ParseAlarms(Alarms(level, dt, info))
            == Some((AlarmSeparator(StringifyLevel(level)), StringifyLevel(level), Text(dt), StringifyInfo(info)))
  {
    var name := StringifyLevel(level);
    var sep := AlarmSeparator(name);
    assert Alarms(level, dt, info) == sep + (name + sep + Text(dt) + sep + StringifyInfo(info)) + sep;
    AlarmLineParsesBack(sep, name, Text(dt), StringifyInfo(info));
  }

  lemma AlarmLineParsesBack(sep: string, name: string, time: string, text: string)
    requires |sep| == 3 && NoEarlySep(name, sep) && NoEarlySep(time, sep)
    ensures ParseAlarms(sep + (name + sep + time + sep + text) + sep) == Some((sep, name, time, text))
  {
    var rest := time + sep + text;
    var inner := name + sep + time + sep + text;
    var line := sep + inner + sep;
    assert line[..3] == sep && line[|line| - 3..] == sep;
    assert line[3..|line| - 3] == inner;
    assert inner == name + sep + rest;
    SplitOnFirst(name, rest, sep);
    SplitOnFirst(time, text, sep);
  }

  /** The part of `s` before the first `c`, and the part after it. */
  function SplitAt(s: string, c: char): (r: Option<(string, string)>)
    ensures r.Some? ==> s == r.value.0 + [c] + r.value.1 && c !in r.value.0
  {
    if s == [] then None
    else if s[0] == c then Some(([], s[1..]))
    else match SplitAt(s[1..], c)
      case None => None
      case Some((x, y)) => Some(([s[0]] + x, y))
  }

  lemma {:induction false} SplitAtFirst(x: string, y: string, c: char)
    requires c !in x
    ensures SplitAt(x + [c] + y, c) == Some((x, y))
    decreases |x|
  {
    if x == [] {
      assert x + [c] + y == [c] + y;
    } else {
      assert (x + [c] + y)[1..] == x[1..] + [c] + y;
      SplitAtFirst(x[1..], y, c);
      assert [x[0]] + x[1..] == x;
    }
  }

  /** Reads a `standard` line back into level name, time and text. */
  function ParseStandard(line: string): Option<(string, string, string)> {
    if |line| < 1 || line[0] != '[' then None
    else match SplitAt(line[1..], ']')
      case None => None
      case Some((name, rest)) =>
        if |rest| < 2 || rest[..2] != ":[" then None
        else match SplitAt(rest[2..], ']')
          case None => None
          case Some((time, rest')) =>
            if |rest'| < 2 || rest'[..2] != ": " then None
            else Some((name, time, rest'[2..]))
  }

  /** A `standard` line determines its parts: when neither the level name
      nor the time contains `]`, the line parses back to exactly the level
      name, the time and the text. */
  lemma StandardParsesBack(name: string, time: string, text: string)
    requires ']' !in name && ']' !in time
    ensures ParseStandard(StandardLine(name, time, text)) == Some((name, time, text))
  {
    var line := StandardLine(name, time, text);
    var rest' := ": " + text;
    var rest := ":[" + time + "]" + rest';
    assert line == "[" + (name + [']'] + rest);
    assert line[1..] == name + [']'] + rest;
    SplitAtFirst(name, rest, ']');
    assert rest == ":[" + (time + [']'] + rest');
    assert rest[..2] == ":[";
    assert rest[2..] == time + [']'] + rest';
    SplitAtFirst(time, rest', ']');
    assert rest'[..2] == ": " && rest'[2..] == text;
  }
}

=== FILE: levels.dfy ===
/**
 The level decorator of `diary/levels.py`. `level(h)` makes a function that
 first hands the event to a reporter and then runs the handler `h` with the
 remaining arguments, so the report happens exactly once, also when `h`
 raises. Reporters and handlers are pure here: a reporter maps the state it
 reports into to a new state, a handler maps its arguments to an outcome.
 */
module Levels {
  import opened Py

  /** The extra arguments of a call: `*args` and `**kwargs`. */
  datatype CallArgs = CallArgs(positional: seq<Value>, keywords: map<string, Value>)

  const NoArgs: CallArgs := CallArgs([], map[])

  /** A level: the decorated function object and the body of the handler it
      wraps. */
  datatype Handler<!E> = Handler(fn: Callable, body: (E, CallArgs) -> Outcome<(), E>)

  /** A keyword argument that names one of the wrapper's own parameters,
      which Python refuses when binding the call, before the body runs. */
  predicate Clashes(args: CallArgs) {
    "event" in args.keywords || "reporter" in args.keywords
  }

  const ClashError: string := "level_wrapper() got multiple values for an argument"

  /** The wrapper `level(h)` returns, called as `wrapper(event, reporter,
      *args, **kwargs)`: `reporter(event)` first, then `h(event, *args,
      **kwargs)`, whose result or exception is the wrapper's. A keyword
      `event` or `reporter` fails the call before anything runs. */
  function Wrap<S, E, R>(body: (E, CallArgs) -> Outcome<R, E>, report: (S, E) -> After<S, (), E>,
                         s: S, event: E, args: CallArgs): (r: After<S, R, E>)
    ensures Clashes(args) ==> r == After(s, Raised(TypeError(ClashError)))
    ensures !Clashes(args) ==> r.state == report(s, event).state
    ensures !Clashes(args) && report(s, event).result.Ok? ==> r.result == body(event, args)
    ensures !Clashes(args) && report(s, event).result.Raised? ==>
              r.result == Raised(report(s, event).result.exc)
  {
    if Clashes(args) then After(s, Raised(TypeError(ClashError)))
    else
      var reported := report(s, event);
      match reported.result
      case Raised(x) => After(reported.state, Raised(x))
      case Ok(_) => After(reported.state, body(event, args))
  }

  /** A reporter that records every event it is handed. */
  function Record<E>(log: seq<E>, event: E): After<seq<E>, (), E> {
    After(log + [event], Ok(()))
  }

  /** The wrapper reports the event exactly once and then returns exactly
      what the handler returns or raises, extra arguments passed through
      unchanged; a raising handler does not undo or skip the report. A call
      whose keywords clash with the wrapper's parameters reports nothing. */
  lemma ReportsOnceThenRuns<E, R>(body: (E, CallArgs) -> Outcome<R, E>, log: seq<E>, event: E, args: CallArgs)
    ensures !Clashes(args) ==> Wrap(body, Record, log, event, args) == After(log + [event], body(event, args))
    ensures Clashes(args) ==> Wrap(body, Record, log, event, args) == After(log, Raised(TypeError(ClashError)))
  {
  }

  /** A sequence of wrapped calls, each one's outcome ignored. */
  function CallEach<E, R>(body: (E, CallArgs) -> Outcome<R, E>, log: seq<E>, calls: seq<(E, CallArgs)>): seq<E>
    decreases |calls|
  {
    if calls == [] then log
    else CallEach(body, Wrap(body, Record, log, calls[0].0, calls[0].1).state, calls[1..])
  }

  /** The events of the calls whose arguments the wrapper accepts, in call
      order. */
  function EventsOf<E>(calls: seq<(E, CallArgs)>): (r: seq<E>)
    ensures |r| <= |calls|
    ensures (forall k :: 0 <= k < |calls| ==> !Clashes(calls[k].1)) ==>
              |r| == |calls| && forall k :: 0 <= k < |calls| ==> r[k] == calls[k].0
    ensures (forall k :: 0 <= k < |calls| ==> Clashes(calls[k].1)) ==> r == []
  {
    if calls == [] then []
    else (if Clashes(calls[0].1) then [] else [calls[0].0]) + EventsOf(calls[1..])
  }

  /** The wrapper keeps no state of its own: every call it accepts makes
      exactly one report, in call order, whether or not the handler raises;
      a call it refuses makes none. */
  lemma {:induction false} RepeatedCallsReportEach<E, R>(body: (E, CallArgs) -> Outcome<R, E>, log: seq<E>,
                                                         calls: seq<(E, CallArgs)>)
    ensures CallEach(body, log, calls) == log + EventsOf(calls)
    decreases |calls|
  {
    if calls != [] {
      var head: seq<E> := if Clashes(calls[0].1) then [] else [calls[0].0];
      ReportsOnceThenRuns(body, log, calls[0].0, calls[0].1);
      assert Wrap(body, Record, log, calls[0].0, calls[0].1).state == log + head;
      RepeatedCallsReportEach(body, log + head, calls[1..]);
      assert EventsOf(calls) == head + EventsOf(calls[1..]);
      assert log + head + EventsOf(calls[1..]) == log + EventsOf(calls);
    }
  }

  // Binding the extra arguments of a call to a handler's parameters.

  function Min(a: int, b: int): int {
    if a < b then a else b
  }

  /** A call binds to parameters `params`, all of which have defaults, when
      it passes no more positional arguments than there are parameters and
      each keyword names a parameter that no positional argument filled. */
  predicate Binds(params: seq<string>, args: CallArgs) {
    && |args.positional| <= |params|
    && forall k :: k in args.keywords ==> k in params && k !in params[..|args.positional|]
  }

  /** The value a bound call gives parameter `i`: the positional argument
      at `i`, else the keyword argument of that name, else the default. */
  function BoundValue(params: seq<string>, defaults: seq<Value>, args: CallArgs, i: nat): Value
    requires i < |params| == |defaults|
  {
    if i < |args.positional| then args.positional[i]
    else if params[i] in args.keywords then args.keywords[params[i]]
    else defaults[i]
  }

  /** Python's binding of a call's extra arguments, raising `TypeError` for
      an unknown keyword, then for a parameter given both positionally and
      by keyword, then for too many positional arguments. */
  function Bind<E>(fname: string, params: seq<string>, defaults: seq<Value>, args: CallArgs)
    : (r: Outcome<seq<Value>, E>)
    requires |defaults| == |params|
    ensures r.Ok? <==> Binds(params, args)
    ensures r.Ok? ==> |r.value| == |params|
                      && forall i :: 0 <= i < |params| ==> r.value[i] == BoundValue(params, defaults, args, i)
    ensures r.Raised? ==> r.exc.TypeError?
  {
    var pos, kws := args.positional, args.keywords;
    if exists k :: k in kws && k !in params then
      Raised(TypeError(fname + "() got an unexpected keyword argument"))
    else if exists k :: k in kws && k in params[..Min(|pos|, |params|)] then
      Raised(TypeError(fname + "() got multiple values for an argument"))
    else if |pos| > |params| then
      Raised(TypeError(fname + "() takes " + IntText(|params| + 1) + " positional arguments but "
                       + IntText(|pos| + 1) + " were given"))
    else
      Ok(seq(|params|, i requires 0 <= i < |params| => BoundValue(params, defaults, args, i)))
  }

  // The built-in levels.

  /** A handler that takes no arguments beyond the event. */
  function Plain<E>(fname: string, event: E, args: CallArgs): Outcome<(), E> {
    match Bind<E>(fname, [], [], args)
    case Raised(x) => Raised(x)
    case Ok(_) => Ok(())
  }

  /** `raise e_type(arg)`: an exception class makes an exception carrying
      the argument; anything else cannot be raised. */
  function RaiseWith<E>(eType: Value, arg: E): (r: Outcome<(), E>)
    ensures r.Raised?
    ensures eType.ExcType? ==> r.exc == Thrown(eType.name, arg)
    ensures !eType.ExcType? ==> r.exc.TypeError?
  {
    if eType.ExcType? then Raised(Thrown(eType.name, arg))
    else Raised(TypeError("exceptions must derive from BaseException"))
  }

  /** `error(event, raises=False, e_type=Exception)`. */
  function ErrorBody<E>(event: E, args: CallArgs): Outcome<(), E> {
    match Bind<E>("error", ["raises", "e_type"], [Bool(false), ExcType("Exception")], args)
    case Raised(x) => Raised(x)
    case Ok(vals) => if Truthy(vals[0]) then RaiseWith(vals[1], event) else Ok(())
  }

  function Info<E>(): Handler<E> {
    Handler(Callable("info", "<function info>"), (e: E, a: CallArgs) => Plain("info", e, a))
  }

  function Warn<E>(): Handler<E> {
    Handler(Callable("warn", "<function warn>"), (e: E, a: CallArgs) => Plain("warn", e, a))
  }

  function Error<E>(): Handler<E> {
    Handler(Callable("error", "<function error>"), (e: E, a: CallArgs) => ErrorBody(e, a))
  }

  function Debug<E>(): Handler<E> {
    Handler(Callable("debug", "<function debug>"), (e: E, a: CallArgs) => Plain("debug", e, a))
  }

  /** `info`, `warn` and `debug` do nothing beyond the report: called with
      the event alone they return normally, and any extra argument makes
      them raise `TypeError`, after the report unless the argument clashes
      with the wrapper's own parameters. */
  lemma PlainLevelsOnlyReport<E>(h: Handler<E>, log: seq<E>, event: E, args: CallArgs)
    requires h == Info<E>() || h == Warn<E>() || h == Debug<E>()
    ensures var r := Wrap(h.body, Record, log, event, args);
            && r.state == (if Clashes(args) then log else log + [event])
            && (r.result == Ok(()) <==> args == NoArgs)
            && (r.result.Raised? ==> r.result.exc.TypeError?)
  {
    if args != NoArgs && args.positional == [] {
      var k :| k in args.keywords;
      assert k !in [];
    }
  }

  /** `error` reports once and then raises `e_type(event)` exactly when the
      bound `raises` is truthy; `e_type` defaults to `Exception`. */
  lemma ErrorRaisesOnRequest<E>(log: seq<E>, event: E, args: CallArgs)
    requires Binds(["raises", "e_type"], args)
    ensures var r := Wrap(Error<E>().body, Record, log, event, args);
            var params, defaults := ["raises", "e_type"], [Bool(false), ExcType("Exception")];
            var raises, eType := BoundValue(params, defaults, args, 0), BoundValue(params, defaults, args, 1);
            && r.state == log + [event]
            && (r.result.Raised? <==> Truthy(raises))
            && (Truthy(raises) && eType.ExcType? ==> r.result == Raised(Thrown(eType.name, event)))
  {
  }

  /** `error(event, reporter, raises=True)` raises `Exception(event)`; with
      no options it returns normally. Either way the reporter ran once. */
  lemma ErrorDefaults<E>(log: seq<E>, event: E)
    ensures Wrap(Error<E>().body, Record, log, event, CallArgs([], map["raises" := Bool(true)]))
            == After(log + [event], Raised(Thrown("Exception", event)))
    ensures Wrap(Error<E>().body, Record, log, event, NoArgs) == After(log + [event], Ok(()))
  {
    var args := CallArgs([], map["raises" := Bool(true)]);
    assert Binds(["raises", "e_type"], args);
    ErrorRaisesOnRequest(log, event, args);
    ErrorRaisesOnRequest(log, event, NoArgs);
  }

  /** An argument `error` does not accept raises `TypeError`. The report is
      still made, since the wrapper passes the argument on after reporting,
      unless it is a keyword `event` or `reporter`, which the wrapper itself
      refuses before reporting. */
  lemma UnacceptedArgumentRaises<E>(log: seq<E>, event: E, args: CallArgs)
    requires !Binds(["raises", "e_type"], args)
    ensures var r := Wrap(Error<E>().body, Record, log, event, args);
            && r.state == (if Clashes(args) then log else log + [event])
            && r.result.Raised? && r.result.exc.TypeError?
  {
  }
}

=== FILE: logthread.dfy ===
/**
 The background logging thread of `diary/logthread.py`. The thread owns a
 FIFO queue; `add` puts an event on it, `join` puts the `None` sentinel on it
 and waits, and `run` first opens the database when asked to and then writes
 each event it takes off the queue until it takes the sentinel.

 The thread's work is a state machine over the queue. The diary it writes to
 is a `Host`: its `set_db` and `_write` as functions from the diary's state to
 a new state and an outcome. An exception escaping `run` ends the thread, so
 a raising `set_db` or `_write` leaves a dead worker behind.
 */
module LogThread {
  import opened Py

  /** A queue entry: an event, or the `None` that `join` puts. */
  datatype Entry<E> = Item(event: E) | Stop

  /** Where `run` is: not yet past the database set-up, in its loop, returned
      after the sentinel, or ended by an exception. */
  datatype Phase = Starting | Running | Finished | Died

  datatype Worker<E> = Worker(queue: seq<Entry<E>>, phase: Phase, setsDb: bool)

  /** The diary the thread writes to. */
  datatype Host<!S, !E> = Host(setDb: S -> After<S, (), E>, write: (S, E) -> After<S, (), E>)

  /** The thread as the constructor leaves it: started, with an empty queue. */
  function Spawn<E>(setsDb: bool): (w: Worker<E>)
    ensures w.queue == [] && w.phase == Starting && w.setsDb == setsDb
  {
    Worker([], Starting, setsDb)
  }

  /** `add`: the event goes to the back of the queue, whatever the thread is
      doing. */
  function Add<E>(w: Worker<E>, event: E): (r: Worker<E>)
    ensures r.queue == w.queue + [Item(event)]
    ensures r.phase == w.phase && r.setsDb == w.setsDb
  {
    w.(queue := w.queue + [Item(event)])
  }

  /** The part of `join` that changes the queue: the sentinel goes to the
      back. (`task_done` only affects `Queue.join`, which nothing calls.) */
  function Signal<E>(w: Worker<E>): (r: Worker<E>)
    ensures r.queue == w.queue + [Stop]
    ensures r.phase == w.phase && r.setsDb == w.setsDb
  {
    w.(queue := w.queue + [Stop])
  }

  /** One step of `run`, or `None` when the thread is blocked on an empty
      queue or has ended. */
  function Step<S, E>(h: Host<S, E>, w: Worker<E>, s: S): Option<(Worker<E>, S)> {
    match w.phase
    case Starting =>
      if w.setsDb then
        var a := h.setDb(s);
        Some((w.(phase := if a.result.Ok? then Running else Died), a.state))
      else Some((w.(phase := Running), s))
    case Running =>
      if w.queue == [] then None
      else (match w.queue[0]
        case Stop => Some((w.(queue := w.queue[1..], phase := Finished), s))
        case Item(e) =>
          var a := h.write(s, e);
          Some((w.(queue := w.queue[1..], phase := if a.result.Ok? then Running else Died), a.state)))
    case Finished => None
    case Died => None
  }

  /** An upper bound on the steps the thread can still take. */
  function Measure<E>(w: Worker<E>): nat {
    match w.phase
    case Starting => |w.queue| + 1
    case Running => |w.queue|
    case Finished => 0
    case Died => 0
  }

  lemma StepShrinks<S, E>(h: Host<S, E>, w: Worker<E>, s: S)
    requires Step(h, w, s).Some?
    ensures Measure(Step(h, w, s).value.0) < Measure(w)
    ensures Step(h, w, s).value.0.setsDb == w.setsDb
  {
  }

  /** At most `fuel` steps of `run`. */
  function Run<S, E>(h: Host<S, E>, w: Worker<E>, s: S, fuel: nat): (Worker<E>, S)
    decreases fuel
  {
    if fuel == 0 then (w, s)
    else match Step(h, w, s)
      case None => (w, s)
      case Some((w', s')) => Run(h, w', s', fuel - 1)
  }

  /** Where the thread comes to rest when nothing is added meanwhile. */
  function Settle<S, E>(h: Host<S, E>, w: Worker<E>, s: S): (Worker<E>, S) {
    Run(h, w, s, Measure(w))
  }

  /** More fuel than `Measure` changes nothing: `Measure` steps reach rest. */
  lemma {:induction false} RunFuel<S, E>(h: Host<S, E>, w: Worker<E>, s: S, fuel: nat)
    requires fuel >= Measure(w)
    ensures Run(h, w, s, fuel) == Settle(h, w, s)
    ensures Step(h, Settle(h, w, s).0, Settle(h, w, s).1).None?
    decreases fuel
  {
    match Step(h, w, s)
    case None =>
      if Measure(w) > 0 {
        assert Run(h, w, s, Measure(w)) == (w, s);
      }
    case Some((w', s')) =>
      StepShrinks(h, w, s);
      RunFuel(h, w', s', fuel - 1);
      RunFuel(h, w', s', Measure(w) - 1);
  }

  /** Settling from the state one step on is settling from here. */
  lemma SettleStep<S, E>(h: Host<S, E>, w: Worker<E>, s: S)
    requires Step(h, w, s).Some?
    ensures Settle(h, w, s) == Settle(h, Step(h, w, s).value.0, Step(h, w, s).value.1)
  {
    var (w', s') := Step(h, w, s).value;
    StepShrinks(h, w, s);
    RunFuel(h, w', s', Measure(w) - 1);
  }

  /** The thread's loop, run until it blocks or ends: the same resting point
      as the recursive `Settle`, and one from which no step is possible. */
  method Drain<S, E>(h: Host<S, E>, w0: Worker<E>, s0: S) returns (w: Worker<E>, s: S)
    ensures (w, s) == Settle(h, w0, s0)
    ensures Step(h, w, s).None?
  {
    w, s := w0, s0;
    while Step(h, w, s).Some?
      invariant Settle(h, w, s) == Settle(h, w0, s0)
      decreases Measure(w)
    {
      SettleStep(h, w, s);
      StepShrinks(h, w, s);
      var next := Step(h, w, s).value;
      w, s := next.0, next.1;
    }
    assert Run(h, w, s, Measure(w)) == (w, s) by {
      if Measure(w) > 0 {
        assert Step(h, w, s).None?;
      }
    }
  }

  // What the thread writes.

  /** The events queued before the first sentinel. */
  function ItemsBeforeStop<E>(q: seq<Entry<E>>): (r: seq<E>)
    ensures |r| <= |q|
  {
    if q == [] || q[0].Stop? then [] else [q[0].event] + ItemsBeforeStop(q[1..])
  }

  /** The entries after the first sentinel. */
  function AfterStop<E>(q: seq<Entry<E>>): seq<Entry<E>> {
    if q == [] then [] else if q[0].Stop? then q[1..] else AfterStop(q[1..])
  }

  /** `_write` applied to each event in turn, stopping at the first one that
      raises. */
  function WriteAll<S, E>(h: Host<S, E>, s: S, events: seq<E>): After<S, (), E>
    decreases |events|
  {
    if events == [] then After(s, Ok(()))
    else
      var a := h.write(s, events[0]);
      if a.result.Raised? then a else WriteAll(h, a.state, events[1..])
  }

  /** Where a running thread comes to rest when every write succeeds. */
  ghost function RestingWorker<E>(q: seq<Entry<E>>, setsDb: bool): Worker<E> {
    if Stop in q then Worker(AfterStop(q), Finished, setsDb) else Worker([], Running, setsDb)
  }

  /** A running thread writes the queued events in queue order, exactly up
      to the first sentinel, and the diary ends as writing them one after
      the other leaves it. If every write succeeds the thread returns at the
      sentinel and leaves the rest of the queue untaken, or waits on the
      empty queue when there is none; if one raises, the thread dies there. */
  lemma {:induction false} RunningWritesInOrder<S, E>(h: Host<S, E>, q: seq<Entry<E>>, setsDb: bool, s: S)
    ensures Settle(h, Worker(q, Running, setsDb), s).1 == WriteAll(h, s, ItemsBeforeStop(q)).state
    ensures WriteAll(h, s, ItemsBeforeStop(q)).result.Ok? ==>
              Settle(h, Worker(q, Running, setsDb), s).0 == RestingWorker(q, setsDb)
    ensures WriteAll(h, s, ItemsBeforeStop(q)).result.Raised? ==>
              Settle(h, Worker(q, Running, setsDb), s).0.phase == Died
    decreases |q|
  {
    var w := Worker(q, Running, setsDb);
    if q == [] {
    } else if q[0].Stop? {
      SettleStep(h, w, s);
      assert Stop in q;
    } else {
      var e := q[0].event;
      var a := h.write(s, e);
      SettleStep(h, w, s);
      assert ItemsBeforeStop(q) == [e] + ItemsBeforeStop(q[1..]);
      if a.result.Ok? {
        RunningWritesInOrder(h, q[1..], setsDb, a.state);
        StopInTail(q);
      }
    }
  }

  lemma StopInTail<E>(q: seq<Entry<E>>)
    requires q != [] && q[0].Item?
    ensures Stop in q <==> Stop in q[1..]
  {
    assert q == [q[0]] + q[1..];
  }

  /** A fresh thread runs `set_db` before anything else exactly when it was
      asked to; if that raises, the thread dies without writing anything. */
  lemma StartsWithSetDb<S, E>(h: Host<S, E>, q: seq<Entry<E>>, setsDb: bool, s: S)
    ensures !setsDb ==> Settle(h, Worker(q, Starting, setsDb), s) == Settle(h, Worker(q, Running, setsDb), s)
    ensures setsDb && h.setDb(s).result.Ok? ==>
              Settle(h, Worker(q, Starting, setsDb), s) == Settle(h, Worker(q, Running, setsDb), h.setDb(s).state)
    ensures setsDb && h.setDb(s).result.Raised? ==>
              Settle(h, Worker(q, Starting, setsDb), s) == (Worker(q, Died, setsDb), h.setDb(s).state)
  {
    SettleStep(h, Worker(q, Starting, setsDb), s);
  }

  /** A queue holding just these events. */
  function Queued<E>(events: seq<E>): (q: seq<Entry<E>>)
    ensures |q| == |events|
    ensures forall k :: 0 <= k < |events| ==> q[k] == Item(events[k])
  {
    seq(|events|, k requires 0 <= k < |events| => Item(events[k]))
  }

  lemma QueuedCons<E>(events: seq<E>)
    requires events != []
    ensures Queued(events) == [Item(events[0])] + Queued(events[1..])
  {
  }

  lemma {:induction false} ItemsOnly<E>(events: seq<E>)
    ensures ItemsBeforeStop(Queued(events)) == events && Stop !in Queued(events)
    decreases |events|
  {
    var q := Queued(events);
    if events != [] {
      ItemsOnly(events[1..]);
      assert q[1..] == Queued(events[1..]);
    }
  }

  lemma {:induction false} BeforeAppendedStop<E>(q: seq<Entry<E>>)
    requires Stop !in q
    ensures ItemsBeforeStop(q + [Stop]) == ItemsBeforeStop(q)
    ensures AfterStop(q + [Stop]) == []
    decreases |q|
  {
    if q != [] {
      assert (q + [Stop])[1..] == q[1..] + [Stop];
      BeforeAppendedStop(q[1..]);
    }
  }

  /** `join` on a running thread whose queue holds no sentinel yet: every
      event added before the join is written, in order, after which the
      thread has returned with nothing left on the queue, or it has died at
      the first write that raised. */
  lemma JoinWritesEverything<S, E>(h: Host<S, E>, q: seq<Entry<E>>, setsDb: bool, s: S)
    requires Stop !in q
    ensures Settle(h, Signal(Worker(q, Running, setsDb)), s).1 == WriteAll(h, s, ItemsBeforeStop(q)).state
    ensures WriteAll(h, s, ItemsBeforeStop(q)).result.Ok? ==>
              Settle(h, Signal(Worker(q, Running, setsDb)), s).0 == Worker([], Finished, setsDb)
    ensures WriteAll(h, s, ItemsBeforeStop(q)).result.Raised? ==>
              Settle(h, Signal(Worker(q, Running, setsDb)), s).0.phase == Died
  {
    RunningWritesInOrder(h, q + [Stop], setsDb, s);
    BeforeAppendedStop(q);
  }

  // The same, seen through a diary that records each call.

  datatype Op<E> = OpenedDb | Wrote(event: E)

  /** A host that never raises and records every call. */
  function Recorder<E>(): Host<seq<Op<E>>, E> {
    Host(t => After(t + [OpenedDb], Ok(())), (t, e) => After(t + [Wrote(e)], Ok(())))
  }

  function Writes<E>(events: seq<E>): (r: seq<Op<E>>)
    ensures |r| == |events|
    ensures forall k :: 0 <= k < |events| ==> r[k] == Wrote(events[k])
  {
    if events == [] then [] else [Wrote(events[0])] + Writes(events[1..])
  }

  lemma {:induction false} RecorderWritesAll<E>(t: seq<Op<E>>, events: seq<E>)
    ensures WriteAll(Recorder(), t, events) == After(t + Writes(events), Ok(()))
    decreases |events|
  {
    if events != [] {
      RecorderWritesAll(t + [Wrote(events[0])], events[1..]);
      assert t + [Wrote(events[0])] + Writes(events[1..]) == t + Writes(events);
    } else {
      assert t + Writes(events) == t;
    }
  }

  /** A fresh thread opens the database before anything else exactly when it
      was asked to, and then writes what was queued meanwhile, in order. */
  lemma OpensDbFirst<E>(setsDb: bool, events: seq<E>)
    ensures Settle(Recorder(), Spawn<E>(setsDb).(queue := Queued(events)), []).1
            == (if setsDb then [OpenedDb] else []) + Writes(events)
  {
    var q := Queued(events);
    var none: seq<Op<E>> := [];
    var t := if setsDb then [OpenedDb] else none;
    assert Spawn<E>(setsDb).(queue := q) == Worker(q, Starting, setsDb);
    StartsWithSetDb(Recorder(), q, setsDb, none);
    assert none + [OpenedDb] == [OpenedDb];
    RunningWritesInOrder(Recorder(), q, setsDb, t);
    ItemsOnly(events);
    RecorderWritesAll(t, events);
  }

  /** Once `run` has returned or died, nothing added later is ever written,
      and a second `join` finds nothing to wait for. */
  lemma EndedThreadIgnoresQueue<S, E>(h: Host<S, E>, w: Worker<E>, s: S, event: E)
    requires w.phase == Finished || w.phase == Died
    ensures Settle(h, Add(w, event), s) == (Add(w, event), s)
    ensures Settle(h, Signal(w), s) == (Signal(w), s)
  {
  }

  /** `join` always ends the thread, whatever it was doing: it returns at
      the sentinel, or an exception from `set_db` or `_write` kills it
      first, or it had already ended. */
  lemma JoinEnds<S, E>(h: Host<S, E>, w: Worker<E>, s: S)
    ensures Settle(h, Signal(w), s).0.phase in {Finished, Died}
  {
    var q := w.queue + [Stop];
    assert Stop in q && Signal(w) == Worker(q, w.phase, w.setsDb);
    match w.phase
    case Starting =>
      StartsWithSetDb(h, q, w.setsDb, s);
      if !w.setsDb {
        RunningWritesInOrder(h, q, w.setsDb, s);
      } else if h.setDb(s).result.Ok? {
        RunningWritesInOrder(h, q, w.setsDb, h.setDb(s).state);
      }
    case Running =>
      RunningWritesInOrder(h, q, w.setsDb, s);
    case Finished =>
    case Died =>
  }

  /** A `_write` that raises ends the thread: the event at the head of the
      queue was the last one it handled, and the ones behind it stay queued. */
  lemma WriteFailureKillsThread<S, E>(h: Host<S, E>, e: E, rest: seq<Entry<E>>, setsDb: bool, s: S)
    requires h.write(s, e).result.Raised?
    ensures Settle(h, Worker([Item(e)] + rest, Running, setsDb), s) == (Worker(rest, Died, setsDb), h.write(s, e).state)
  {
    var w := Worker([Item(e)] + rest, Running, setsDb);
    SettleStep(h, w, s);
    assert w.queue[1..] == rest;
  }

  /** Scheduling does not change what is written: adding an event before
      or after a step of the thread leads to the same state, so writes
      happen in the order of the `add` calls however the two threads
      interleave. */
  lemma AddCommutesWithStep<S, E>(h: Host<S, E>, w: Worker<E>, s: S, event: E)
    requires Step(h, w, s).Some?
    ensures Step(h, Add(w, event), s).Some?
    ensures Step(h, Add(w, event), s).value == (Add(Step(h, w, s).value.0, event), Step(h, w, s).value.1)
  {
    if w.phase == Running {
      assert Add(w, event).queue[1..] == w.queue[1..] + [Item(event)];
    }
  }
}

=== FILE: posix_path.dfy ===
/**
 The parts of Python's `posixpath` that the diary constructor uses to read
 the path it is given: `split` (only the last component is used), `splitext`
 and `join`. A path is a string with `/` as its separator.
 */
module PosixPath {

  /** `s.rfind(c)`: the position of the last `c`, or -1. */
  function RFind(s: string, c: char): (r: int)
    ensures -1 <= r < |s|
    ensures r >= 0 ==> s[r] == c
    ensures forall k :: r < k < |s| ==> s[k] != c
  {
    if s == [] then -1
    else if s[|s| - 1] == c then |s| - 1
    else RFind(s[..|s| - 1], c)
  }

  /** The last component of a path: what `os.path.split` returns second. */
  function Tail(p: string): (r: string)
    ensures '/' !in r
    ensures |r| <= |p| && p[|p| - |r|..] == r
  {
    p[RFind(p, '/') + 1..]
  }

  /** The last component is all of the path after its last separator: it
      is the whole path, or a `/` stands right before it. */
  lemma TailFollowsSeparator(p: string)
    ensures |Tail(p)| == |p| || p[|p| - |Tail(p)| - 1] == '/'
  {
  }

  /** `os.path.splitext`: the extension runs from the last dot of the last
      component to the end, unless that component has nothing but dots
      before it, so `.bashrc` and `..` have none. */
  function SplitExt(p: string): (r: (string, string))
    ensures r.0 + r.1 == p
    ensures r.1 == [] || (r.1[0] == '.' && '/' !in r.1 && '.' !in r.1[1..])
    ensures r.1 != [] <==> exists k, i :: RFind(p, '/') < k < i < |p| && p[k] != '.' && p[i] == '.'
  {
    var sep := RFind(p, '/');
    var dot := RFind(p, '.');
    if dot > sep && exists k :: sep + 1 <= k < dot && p[k] != '.' then
      assert p[..dot] + p[dot..] == p;
      (p[..dot], p[dot..])
    else (p, [])
  }

  function Ext(p: string): string {
    SplitExt(p).1
  }

  /** A last component with something other than dots before its last dot. */
  predicate HasStem(stem: string) {
    exists k :: RFind(stem, '/') < k < |stem| && stem[k] != '.'
  }

  /** `splitext` finds exactly the extension a path was built with. */
  lemma SplitExtOf(stem: string, ext: string)
    requires '/' !in ext && '.' !in ext && HasStem(stem)
    ensures SplitExt(stem + "." + ext) == (stem, "." + ext)
  {
    var p := stem + "." + ext;
    assert p[..|stem|] == stem;
    assert p[|stem|] == '.';
    RFindPast(stem, "." + ext, '.');
    RFindPast(stem, "." + ext, '/');
    var k :| RFind(stem, '/') < k < |stem| && stem[k] != '.';
    assert p[k] == stem[k];
    assert p[..|stem|] == stem && p[|stem|..] == "." + ext;
  }

  /** Where the last `c` of `a + b` lies. */
  lemma {:induction false} RFindPast(a: string, b: string, c: char)
    ensures c in b ==> RFind(a + b, c) == |a| + RFind(b, c)
    ensures c !in b ==> RFind(a + b, c) == RFind(a, c)
    decreases |b|
  {
    if b == [] {
      assert a + b == a;
    } else {
      var b' := b[..|b| - 1];
      assert (a + b)[..|a + b| - 1] == a + b';
      if b[|b| - 1] != c {
        RFindPast(a, b', c);
        assert c in b <==> c in b' by {
          assert b == b' + [b[|b| - 1]];
        }
      }
    }
  }

  /** `RFind` is determined by its contract: the last position holding `c`. */
  lemma RFindIsLast(s: string, c: char, r: int)
    requires -1 <= r < |s|
    requires r >= 0 ==> s[r] == c
    requires forall k :: r < k < |s| ==> s[k] != c
    ensures RFind(s, c) == r
  {
  }

  /** A last component without a dot has no extension. */
  lemma NoDotNoExt(p: string)
    requires '.' !in Tail(p)
    ensures Ext(p) == []
  {
  }

  /** Leading dots belong to the name: a last component made of dots and
      then a dotless rest, like `.db` or `..x`, has no extension. */
  lemma {:induction false} LeadingDotsNoExt(dir: string, dots: string, rest: string)
    requires dir == [] || dir[|dir| - 1] == '/'
    requires forall k :: 0 <= k < |dots| ==> dots[k] == '.'
    requires '/' !in dots + rest && '.' !in rest
    ensures Ext(dir + dots + rest) == []
  {
    var name := dots + rest;
    var p := dir + name;
    assert dir + dots + rest == p;
    RFindPast(dir, name, '/');
    if dir != [] {
      RFindIsLast(dir, '/', |dir| - 1);
    }
    forall k | |dir| <= k < |dir| + |dots|
      ensures p[k] == '.'
    {
      assert p[k] == dots[k - |dir|];
    }
    forall i | |dir| + |dots| <= i < |p|
      ensures p[i] != '.'
    {
      assert p[i] == rest[i - |dir| - |dots|];
    }
  }

  /** `.db` and `dir/..x` have no extension. */
  lemma LeadingDotExamples()
    ensures Ext(".db") == [] && Ext("dir/..x") == []
  {
    assert '.' !in "db" && '.' !in "x";
    LeadingDotsNoExt([], ".", "db");
    assert [] + "." + "db" == ".db";
    LeadingDotsNoExt("dir/", "..", "x");
    assert "dir/" + ".." + "x" == "dir/..x";
  }

  /** `os.path.join(a, b)`. */
  function Join(a: string, b: string): (r: string)
    ensures |b| > 0 && b[0] == '/' ==> r == b
  {
    if |b| > 0 && b[0] == '/' then b
    else if a == [] || a[|a| - 1] == '/' then a + b
    else a + "/" + b
  }

  /** Joining a name onto a directory yields a path whose last component is
      that name. */
  lemma JoinTail(a: string, b: string)
    requires '/' !in b
    ensures Tail(Join(a, b)) == b
  {
    var p := Join(a, b);
    var pre := p[..|p| - |b|];
    assert p == pre + b;
    if b == [] {
      if p != [] {
        assert p[|p| - 1] == '/' by {
          if a == [] {
          } else if a[|a| - 1] == '/' {
          } else {
            assert p == a + "/";
          }
        }
      }
    } else {
      if a == [] || a[|a| - 1] == '/' {
        assert pre == a;
      } else {
        assert pre == a + "/";
      }
    }
    RFindPast(pre, b, '/');
    if pre != [] {
      assert pre[|pre| - 1] == '/' by {
        if a != [] && a[|a| - 1] != '/' {
          assert pre == a + "/";
        }
      }
      RFindIsLast(pre, '/', |pre| - 1);
    }
  }
}

=== FILE: py.dfy ===
/**
 The slice of Python's object model that the diary library relies on: the
 values it stores in events (levels, payloads, timestamps, formatters),
 their `str()` text and truthiness, the exceptions the library raises, and
 the outcome of a call that either returns or raises.
 */
module Py {

  /** A Python function object: its `__name__` and its `repr()` text. */
  datatype Callable = Callable(name: string, repr: string)

  /** A Python object as far as the library can tell them apart. `Obj` is
      any other object, known by its `str()` text and its truthiness. */
  datatype Value =
    | NoneV
    | Bool(b: bool)
    | Int(i: int)
    | Str(s: string)
    | Func(fn: Callable)
    | ExcType(name: string)
    | Obj(text: string, truthy: bool)

  datatype Option<T> = None | Some(value: T)

  /** The exceptions the modelled code raises. `Thrown(t, arg)` is what
      `raise t(arg)` raises for an exception class `t`. */
  datatype Exc<E> =
    | ValueError(message: string)
    | TypeError(message: string)
    | AttributeError(attribute: string)
    | KeyError(key: string)
    | IndexError(index: string)
    | RuntimeError(message: string)
    | Thrown(excType: string, arg: E)
    /** A call whose Python behaviour this model does not describe. */
    | OutsideModel(detail: string)

  /** The result of a Python call: it returned a value or it raised. */
  datatype Outcome<R, E> = Ok(value: R) | Raised(exc: Exc<E>)

  /** A state paired with the outcome of the call that produced it. */
  datatype After<S, R, E> = After(state: S, result: Outcome<R, E>)

  /** Python's `bool(v)`. */
  predicate Truthy(v: Value) {
    match v
    case NoneV => false
    case Bool(b) => b
    case Int(i) => i != 0
    case Str(s) => |s| > 0
    case Func(_) => true
    case ExcType(_) => true
    case Obj(_, t) => t
  }

  function DigitChar(d: nat): (c: char)
    requires d < 10
    ensures '0' <= c <= '9'
  {
    ['0', '1', '2', '3', '4', '5', '6', '7', '8', '9'][d]
  }

  /** Decimal digits of a natural number, most significant first. */
  function Digits(n: nat): (r: string)
    ensures |r| > 0
    ensures forall k :: 0 <= k < |r| ==> '0' <= r[k] <= '9'
  {
    if n < 10 then [DigitChar(n)] else Digits(n / 10) + [DigitChar(n % 10)]
  }

  /** Python's `str(i)` for an integer. */
  function IntText(i: int): (r: string)
    ensures |r| > 0
    ensures r[0] == '-' <==> i < 0
  {
    if i < 0 then "-" + Digits(-i) else Digits(i)
  }

  /** Python's `str(v)`, which is also what `format(v, "")` produces. */
  function Text(v: Value): string {
    match v
    case NoneV => "None"
    case Bool(b) => if b then "True" else "False"
    case Int(i) => IntText(i)
    case Str(s) => s
    case Func(fn) => fn.repr
    case ExcType(name) => "<class '" + name + "'>"
    case Obj(t, _) => t
  }

  function UpperChar(c: char): char {
    if 'a' <= c <= 'z' then (c as int - 32) as char else c
  }

  /** Python's `str.upper()` on ASCII letters; other characters are kept. */
  function Upper(s: string): (r: string)
    ensures |r| == |s|
    ensures forall k :: 0 <= k < |s| ==> r[k] == UpperChar(s[k])
  {
    if s == [] then [] else [UpperChar(s[0])] + Upper(s[1..])
  }
}

=== FILE: template.dfy ===
/**
 Python's `str.format(**fields)` for the templates an event formatter may
 hold: literal text, `{{` and `}}` escapes, and `{name}` placeholders looked
 up by keyword. `Format` follows the single left-to-right pass CPython
 makes, so the first problem met is the one reported; `Parse` and `Render`
 split the same work into a syntax phase (a token list) and a lookup phase.
 */
module Template {
  import opened Py

  /** One piece of a parsed template: a literal character or a named
      placeholder. */
  datatype Token = Lit(c: char) | Field(name: string)

  datatype FormatError =
    /** `ValueError`: the template is malformed. */
    | Malformed(message: string)
    /** A placeholder with a conversion (`!r`), a format spec (`:>8`), an
        attribute (`.x`) or an index (`[0]`); these are outside the model. */
    | Unsupported(field: string)
    /** `KeyError`: no keyword argument of this name. */
    | MissingKey(key: string)
    /** `IndexError`: a positional placeholder, and there are no positional
        arguments. */
    | MissingIndex(index: string)

  datatype Result<T> = Done(value: T) | Fail(error: FormatError)

  function Prepend(p: string, r: Result<string>): (r': Result<string>)
    ensures r'.Done? <==> r.Done?
    ensures r.Fail? ==> r' == r
    ensures r.Done? ==> r'.value == p + r.value
  {
    match r
    case Done(v) => Done(p + v)
    case Fail(e) => Fail(e)
  }

  function Cons(t: Token, r: Result<seq<Token>>): (r': Result<seq<Token>>)
    ensures r'.Done? <==> r.Done?
    ensures r.Fail? ==> r' == r
    ensures r.Done? ==> r'.value == [t] + r.value
  {
    match r
    case Done(v) => Done([t] + v)
    case Fail(e) => Fail(e)
  }

  /** The text of a placeholder after its opening `{`, up to the `}` that
      balances it (CPython counts nested braces here), and what follows. */
  function ScanField(t: string, depth: nat): (r: Option<(string, string)>)
    requires depth >= 1
    ensures r.Some? ==> t == r.value.0 + "}" + r.value.1
    decreases |t|
  {
    if t == [] then None
    else if t[0] == '}' && depth == 1 then Some(([], t[1..]))
    else
      var depth' := if t[0] == '}' then depth - 1 else if t[0] == '{' then depth + 1 else depth;
      match ScanField(t[1..], depth')
      case None => None
      case Some((f, a)) => Some(([t[0]] + f, a))
  }

  /** The first of `{`, `[`, `:` or `!` in a placeholder, which decides how
      CPython reads the rest of it. */
  function FirstSpecial(t: string): Option<char> {
    if t == [] then None
    else if t[0] in "{[:!" then Some(t[0])
    else FirstSpecial(t[1..])
  }

  /** A placeholder's text as a plain keyword name, or the error it draws. */
  function FieldName(text: string): Result<string> {
    match FirstSpecial(text)
    case Some(c) =>
      if c == '{' then Fail(Malformed("unexpected '{' in field name"))
      else Fail(Unsupported(text))
    case None =>
      if '.' in text then Fail(Unsupported(text)) else Done(text)
  }

  predicate AllDigits(n: string) {
    forall k :: 0 <= k < |n| ==> '0' <= n[k] <= '9'
  }

  /** A name CPython reads as a positional index: empty (automatic
      numbering) or all decimal digits. */
  predicate Positional(n: string) {
    n == [] || AllDigits(n)
  }

  /** The text a named placeholder is replaced with. */
  function Resolve(n: string, fields: map<string, Value>): (r: Result<string>)
    ensures r.Done? <==> !Positional(n) && n in fields
    ensures r.Done? ==> r.value == Text(fields[n])
  {
    if Positional(n) then Fail(MissingIndex(if n == [] then "0" else n))
    else if n in fields then Done(Text(fields[n]))
    else Fail(MissingKey(n))
  }

  /** `template.format(**fields)`, in CPython's single pass. */
  function Format(s: string, fields: map<string, Value>): Result<string>
    decreases |s|
  {
    if s == [] then Done([])
    else if s[0] == '{' then
      if |s| == 1 then Fail(Malformed("Single '{' encountered in format string"))
      else if s[1] == '{' then Prepend("{", Format(s[2..], fields))
      else match ScanField(s[1..], 1)
        case None => Fail(Malformed("expected '}' before end of string"))
        case Some((text, rest)) =>
          match FieldName(text)
          case Fail(e) => Fail(e)
          case Done(n) =>
            match Resolve(n, fields)
            case Fail(e) => Fail(e)
            case Done(v) => Prepend(v, Format(rest, fields))
    else if s[0] == '}' then
      if |s| >= 2 && s[1] == '}' then Prepend("}", Format(s[2..], fields))
      else Fail(Malformed("Single '}' encountered in format string"))
    else Prepend([s[0]], Format(s[1..], fields))
  }

  /** The syntax phase: the token list a well-formed template stands for. */
  function Parse(s: string): Result<seq<Token>>
    decreases |s|
  {
    if s == [] then Done([])
    else if s[0] == '{' then
      if |s| == 1 then Fail(Malformed("Single '{' encountered in format string"))
      else if s[1] == '{' then Cons(Lit('{'), Parse(s[2..]))
      else match ScanField(s[1..], 1)
        case None => Fail(Malformed("expected '}' before end of string"))
        case Some((text, rest)) =>
          match FieldName(text)
          case Fail(e) => Fail(e)
          case Done(n) => Cons(Field(n), Parse(rest))
    else if s[0] == '}' then
      if |s| >= 2 && s[1] == '}' then Cons(Lit('}'), Parse(s[2..]))
      else Fail(Malformed("Single '}' encountered in format string"))
    else Cons(Lit(s[0]), Parse(s[1..]))
  }

  /** The lookup phase: every placeholder replaced by its field's text. */
  function Render(t: seq<Token>, fields: map<string, Value>): Result<string> {
    if t == [] then Done([])
    else match t[0]
      case Lit(c) => Prepend([c], Render(t[1..], fields))
      case Field(n) =>
        match Resolve(n, fields)
        case Fail(e) => Fail(e)
        case Done(v) => Prepend(v, Render(t[1..], fields))
  }

  /** The template text a token list is written as. */
  function Print(t: seq<Token>): string {
    if t == [] then []
    else
      var head := match t[0]
        case Lit(c) => if c == '{' then "{{" else if c == '}' then "}}" else [c]
        case Field(n) => "{" + n + "}";
      head + Print(t[1..])
  }

  /** A placeholder name `Print` can write so that `Parse` reads it back. */
  predicate PlainName(n: string) {
    forall k :: 0 <= k < |n| ==> n[k] !in "{}[:!."
  }

  predicate PlainTokens(t: seq<Token>) {
    forall k :: 0 <= k < |t| ==> t[k].Field? ==> PlainName(t[k].name)
  }

  /** The names of all placeholders of a token list. */
  function Names(t: seq<Token>): set<string> {
    set k | 0 <= k < |t| && t[k].Field? :: t[k].name
  }

  /** Both phases together are the single pass: a template that parses
      formats to what its tokens render to. */
  lemma {:induction false} FormatIsParseThenRender(s: string, fields: map<string, Value>)
    requires Parse(s).Done?
    ensures Format(s, fields) == Render(Parse(s).value, fields)
    decreases |s|
  {
    if s == [] {
    } else if s[0] == '{' {
      if s[1] == '{' {
        FormatIsParseThenRender(s[2..], fields);
      } else {
        var Some((text, rest)) := ScanField(s[1..], 1);
        FormatIsParseThenRender(rest, fields);
      }
    } else if s[0] == '}' {
      FormatIsParseThenRender(s[2..], fields);
    } else {
      FormatIsParseThenRender(s[1..], fields);
    }
  }

  /** A token list renders exactly when every placeholder names a keyword
      that is present. */
  lemma {:induction false} RenderSucceedsIff(t: seq<Token>, fields: map<string, Value>)
    ensures Render(t, fields).Done?
            <==> forall k :: 0 <= k < |t| && t[k].Field? ==> !Positional(t[k].name) && t[k].name in fields
  {
    if t != [] {
      RenderSucceedsIff(t[1..], fields);
      assert forall k :: 1 <= k < |t| ==> t[k] == t[1..][k - 1];
    }
  }

  /** Rendering reads only the fields its placeholders name: two field maps
      that agree on those names give the same result. */
  lemma {:induction false} RenderReadsOnlyNames(t: seq<Token>, f: map<string, Value>, g: map<string, Value>)
    requires forall n :: n in Names(t) ==> (n in f <==> n in g) && (n in f ==> f[n] == g[n])
    ensures Render(t, f) == Render(t, g)
  {
    if t != [] {
      assert Names(t[1..]) <= Names(t) by {
        forall n | n in Names(t[1..]) ensures n in Names(t) {
          var k :| 0 <= k < |t[1..]| && t[1..][k].Field? && t[1..][k].name == n;
          assert t[k + 1] == t[1..][k];
        }
      }
      RenderReadsOnlyNames(t[1..], f, g);
      if t[0].Field? {
        assert t[0].name in Names(t);
      }
    }
  }

  lemma {:induction false} ScanPlain(n: string, rest: string)
    requires PlainName(n)
    ensures ScanField(n + "}" + rest, 1) == Some((n, rest))
    decreases |n|
  {
    if n == [] {
      assert n + "}" + rest == "}" + rest;
    } else {
      assert (n + "}" + rest)[1..] == n[1..] + "}" + rest;
      ScanPlain(n[1..], rest);
      assert [n[0]] + n[1..] == n;
    }
  }

  lemma {:induction false} FirstSpecialPlain(n: string)
    requires PlainName(n)
    ensures FirstSpecial(n) == None
    decreases |n|
  {
    if n != [] {
      FirstSpecialPlain(n[1..]);
    }
  }

  lemma ParseFieldHead(n: string, tail: string)
    requires PlainName(n)
    ensures Parse("{" + n + "}" + tail) == Cons(Field(n), Parse(tail))
  {
    var s := "{" + n + "}" + tail;
    assert s[1..] == n + "}" + tail;
    ScanPlain(n, tail);
    FirstSpecialPlain(n);
    assert forall k :: 0 <= k < |n| ==> n[k] != '.';
    if n != [] {
      assert s[1] == n[0];
    } else {
      assert s[1] == '}';
    }
  }

  lemma ParseLitHead(c: char, tail: string)
    ensures var head := if c == '{' then "{{" else if c == '}' then "}}" else [c];
            Parse(head + tail) == Cons(Lit(c), Parse(tail))
  {
    var head := if c == '{' then "{{" else if c == '}' then "}}" else [c];
    var s := head + tail;
    if c == '{' || c == '}' {
      assert s[0] == c && s[1] == c && s[2..] == tail;
    } else {
      assert s[0] == c && s[1..] == tail;
    }
  }

  /** Printing then parsing gives back the tokens. */
  lemma {:induction false} ParsePrint(t: seq<Token>)
    requires PlainTokens(t)
    ensures Parse(Print(t)) == Done(t)
  {
    if t != [] {
      assert PlainTokens(t[1..]) by {
        forall k | 0 <= k < |t[1..]| && t[1..][k].Field? ensures PlainName(t[1..][k].name) {
          assert t[1..][k] == t[k + 1];
        }
      }
      ParsePrint(t[1..]);
      assert t == [t[0]] + t[1..];
      match t[0]
      case Lit(c) =>
        ParseLitHead(c, Print(t[1..]));
      case Field(n) =>
        assert PlainName(n);
        ParseFieldHead(n, Print(t[1..]));
    }
  }

  /** Parsing then printing gives back the template. */
  lemma {:induction false} PrintParse(s: string)
    requires Parse(s).Done?
    ensures Print(Parse(s).value) == s
    decreases |s|
  {
    if s == [] {
    } else if s[0] == '{' {
      if s[1] == '{' {
        PrintParse(s[2..]);
        assert s == "{{" + s[2..];
      } else {
        var Some((text, rest)) := ScanField(s[1..], 1);
        PrintParse(rest);
        assert s == "{" + (text + "}" + rest);
      }
    } else if s[0] == '}' {
      PrintParse(s[2..]);
      assert s == "}}" + s[2..];
    } else {
      PrintParse(s[1..]);
      assert s == [s[0]] + s[1..];
    }
  }
}
